=== FILE: README.md ===
# Portfolio view logic in Dafny

This project models the view logic of a single-page personal portfolio written in
React. The logic covered is:

- what each page shows for the content it fetches;
- how the Skills and Projects pages filter and group that content;
- how a fetched project row is normalised for the project modal;
- the small state machines of the navigation bar and the contact form;
- the footer's link filter and copyright line.

Markup, styling and animation are left out. Each page becomes a pure function from its
inputs (the fetched data, a loading flag, the component state) to a view datatype. Each
event handler becomes a function from state to state.

JavaScript values that may be missing are modelled as `Js<T>`, which is `Undefined`,
`Null` or `Val(v)`. The JavaScript idioms the pages rely on are defined once, in
module `Js`:

- truthiness (`Truthy`);
- the `a || b` default (`OrString`, `OrList`);
- template interpolation `${x}` (`Interpolate`).

The modules are:

- `Js`: missing values, truthiness, defaults, interpolation, `startsWith`.
- `Seqs`: `Array.prototype.filter` as `Filter`, with its order, membership and
  multiplicity lemmas, plus flattening.
- `Decimal`: `String(n)` for safe integers, with its parser and the round trip.
- `Profile`: the personal-info record and the loading/failed/ready guard the pages
  share. It also holds `split(' ')` and `join(' ')` and the initials avatar.
- `Skills`: `src/pages/Skills.tsx`.
- `Projects`: `src/pages/Projects.tsx`.
- `Navigation`: `src/components/Navigation.tsx`.
- `Contact`: `src/pages/Contact.tsx`.
- `Footer`: `src/components/Footer.tsx`.
- `Home`: `src/pages/Home.tsx`.
- `About`: `src/pages/About.tsx`.

The navigation bar has only two pieces of state: the open flag of the mobile menu
and a "scrolled" flag, set when `window.scrollY > 50`. The bar does not hide on scroll.
It does not lock the page's scrolling. It does not close on an outside tap or on a route
change. Only the menu button and a tap on a mobile link change the open flag.

## Model

| member | source | states |
|---|---|---|
| Js.OrString | src/pages/Projects.tsx:31-36 | `s \|\| d` on a string gives `s` exactly when `s` is a non-empty string, otherwise the default |
| Js.OrList | src/pages/Projects.tsx:34 | `xs \|\| []` on an array keeps every present array, the empty one included, and defaults only a missing one |
| Js.Interpolate | src/components/Footer.tsx:67 | `${x}` prints a present string as itself, `undefined` as "undefined" and `null` as "null" |
| Seqs.Filter | src/pages/Skills.tsx:31-33 | the filtered list is no longer than the input, every kept element satisfies the predicate, and every kept element comes from the input |
| Seqs.FilterAppend | src/pages/Skills.tsx:40 | filtering distributes over concatenation, so the filter keeps the input order |
| Seqs.FilterMember | src/pages/Skills.tsx:31-33 | an element is in the filtered list exactly when it is in the input and satisfies the predicate |
| Seqs.FilterCount | src/pages/Skills.tsx:40 | the filter keeps every kept element with its full multiplicity |
| Seqs.FilterKeepsAll | src/pages/Skills.tsx:31-33 | a predicate that holds everywhere gives back the input |
| Seqs.FilterCongruent | src/pages/Projects.tsx:21-23 | predicates that agree on the input filter it identically |
| Seqs.FilterDisjointUnion | src/pages/Skills.tsx:37-44 | filtering by the union of two disjoint predicates gives, as a multiset, the sum of the two filtered lists |
| Decimal.NatToString | src/pages/Projects.tsx:41 | the digits of a natural number: a non-empty digit string without a leading zero |
| Decimal.IntToString | src/pages/Projects.tsx:41 | `String(n)` for a safe integer (magnitude at most 2^53 - 1): a non-negative n prints as its digits with no leading zero, a negative n as '-' followed by them; at most seventeen characters, so never JavaScript's exponent form |
| Decimal.IntRoundTrip | src/pages/Projects.tsx:41 | parsing the printed safe integer gives back the integer, so distinct safe integers print differently |
| Decimal.NegativeRoundTrip | src/pages/Projects.tsx:41 | a negative safe integer prints as '-' followed by its magnitude's digits, and reads back as itself |
| Decimal.SafeDigits | src/pages/Projects.tsx:41 | a safe integer has at most sixteen digits, below the twenty-two at which JavaScript prints exponent form |
| Profile.Resolve | src/pages/Home.tsx:55-69 | the loading view exactly while loading; otherwise the failure view exactly when the data is absent; otherwise the content, which is the fetched data |
| Profile.Split | src/pages/Home.tsx:103 | `split(' ')` always gives at least one piece, and no piece contains a space |
| Profile.SplitJoin | src/pages/Home.tsx:103 | joining the pieces of `split(' ')` with spaces gives back the original string |
| Profile.InitialsAreWordStarts | src/pages/Home.tsx:103 | the initials are the characters that begin a word, in order; extra spaces add no initial |
| Profile.Initials | src/pages/Home.tsx:103 | the badge text has at most one character per space-separated part and never contains a space |
| Profile.AvatarFor | src/pages/Home.tsx:86-106 | the photo appears exactly when `image_url` is a non-empty string; otherwise the badge shows the word-start characters of the name |
| Skills.FilterSkills | src/pages/Skills.tsx:31-33 | missing data gives []; "All Skills" gives every skill; any other tab gives that category's skills in order; membership holds exactly for the tab's skills |
| Skills.GroupSkills | src/pages/Skills.tsx:35-44 | the loop's groups follow `skillCategories`; each key is one of the eight categories; each group is non-empty and holds exactly that category's filtered skills |
| Skills.GroupAlong | src/pages/Skills.tsx:37-44 | visiting any category list in order, skipping "All Skills" and empty categories, builds exactly the reference grouping |
| Skills.GroupByKeys | src/pages/Skills.tsx:37-44 | every group is keyed by a listed category other than "All Skills" and holds exactly that category's skills |
| Skills.GroupPresentIff | src/pages/Skills.tsx:38-43 | a category has a group exactly when it is listed, is not "All Skills" and some filtered skill has it |
| Skills.GroupsInCategoryOrder | src/pages/Skills.tsx:37-44 | groups appear in the order of their categories in the category list |
| Skills.SkillCategoriesDistinct | src/pages/Skills.tsx:19-29 | the nine tab names are pairwise distinct |
| Skills.GroupedShowsListedSkills | src/pages/Skills.tsx:113-114 | the grouped view shows each skill of a listed category as often as it occurs, and no other skill |
| Skills.InitialViewGroupsListedSkills | src/pages/Skills.tsx:14 | on first render the view is grouped and shows, with multiplicity, exactly the loaded skills whose category is one of the eight |
| Skills.ClickingCategoryShowsOnlyIt | src/pages/Skills.tsx:100 | after clicking a category's tab the flat list shows exactly that category's skills, in data order |
| Skills.SelectTab | src/pages/Skills.tsx:100 | a tab click makes that tab active whatever was active before; clicking "All Skills" gives back the initial state |
| Skills.Render | src/pages/Skills.tsx:46-172 | the loading view exactly while skills load; under "All Skills" the groups of the filtered skills in category order; under any other tab the flat filtered list, which holds exactly the loaded skills of that category |
| Skills.CertificationsSection | src/pages/Skills.tsx:206-254 | the section appears exactly when certifications are loaded, present and non-empty; it has one card per certification, in order, with that certification's name and organization; a card links to the certification's own `link` exactly when it is set |
| Projects.FilterProjects | src/pages/Projects.tsx:21-23 | missing data gives []; "All Projects" gives every project; any other tab gives that category's projects in order; membership holds exactly for the tab's projects |
| Projects.ProjectTabsFilter | src/pages/Projects.tsx:19-23 | the four tab names are distinct; the first tab shows every project and each other tab exactly the projects of its own category |
| Projects.StatText | src/pages/Projects.tsx:41 | `String(value)` keeps a string as is, prints a safe-integer number exactly as `String(n)` does (no leading zero, and it parses back), a boolean as "true" or "false", `null` as "null" and a nested object as "[object Object]" |
| Projects.EntriesToStats | src/pages/Projects.tsx:41 | one pair per object entry, in entry order, keyed by the entry's key and valued by its text |
| Projects.StatsAsWritten | src/pages/Projects.tsx:40-46 | the conversion throws exactly for `null` stats; an object gives its entries; a missing value or a string, number or boolean gives the three defaults |
| Projects.NormalizeStats | src/pages/Projects.tsx:40-46 | the corrected conversion gives an object's entries in order and the three defaults for anything else, `null` included |
| Projects.NormalizeAsWritten | src/pages/Projects.tsx:25-47 | the written transformation throws exactly when `stats` is `null` |
| Projects.Normalize | src/pages/Projects.tsx:27-47 | identity fields are copied; each optional text field takes its default when missing or empty; arrays default only when missing; links are copied; dates and image are never empty |
| Projects.NormalizeAgreesUnlessNull | src/pages/Projects.tsx:40-46 | the corrected and the written normalisation agree on every row whose stats are not `null`; a `null` row gets the defaults |
| Projects.NormalizeEmbedRoundTrip | src/pages/Projects.tsx:27-47 | normalisation loses nothing: a complete modal record, written out as a raw row, normalises back to itself |
| Projects.Click | src/pages/Projects.tsx:49-50 | a card click opens the modal on the card's normalised record and keeps the tab |
| Projects.SelectTab | src/pages/Projects.tsx:102 | a tab click sets the tab and leaves the modal and its selection as they were |
| Projects.ClickAsWritten | src/pages/Projects.tsx:25-51 | with `null` stats the written handler throws before any update, so the state is unchanged; otherwise it equals the corrected click |
| Projects.Close | src/pages/Projects.tsx:223 | closing clears only the open flag; the selection and the tab stay |
| Projects.ClickThenClose | src/pages/Projects.tsx:49-50 | click then close leaves the modal closed on the clicked record; closing twice is closing once |
| Projects.NullStatsNeverOpensModal | src/pages/Projects.tsx:40-41 | a project with `null` stats never opens the modal under the written handler, but does under the corrected one |
| Projects.TechChips | src/pages/Projects.tsx:186-198 | the whole list as chips when it has at most three entries, else exactly its first three; a "+N more" badge appears exactly when there are more than three, with N the number left over |
| Projects.ChipsReassemble | src/pages/Projects.tsx:186-198 | the chips followed by the hidden rest give back the whole list, and the rest's length is the badge count |
| Projects.Render | src/pages/Projects.tsx:53-59 | the loading view exactly while loading; otherwise the grid of filtered cards, with "No projects found" exactly when the grid is empty |
| Projects.NoneFoundIff | src/pages/Projects.tsx:207 | "No projects found" shows exactly when the data is missing or no project matches the active tab |
| Navigation.Step | src/components/Navigation.tsx:12-18 | a scroll sets `scrolled` to `scrollY > 50` and leaves the menu alone; the button flips the menu; a mobile link closes it; nothing else changes |
| Navigation.Run | src/components/Navigation.tsx:12-93 | handling events in order: scroll events alone never open or close the menu, and a history ending in a mobile link tap leaves it closed |
| Navigation.ThresholdBoundary | src/components/Navigation.tsx:14 | an offset of exactly 50 does not count as scrolled; 50.5 does |
| Navigation.ToggleTwiceRestores | src/components/Navigation.tsx:75 | two taps on the menu button restore the state |
| Navigation.ScrolledFollowsLastScroll | src/components/Navigation.tsx:12-18 | after any events, `scrolled` is decided by the last scroll offset alone, or is unchanged if there was no scroll |
| Navigation.OpenIgnoresScrolling | src/components/Navigation.tsx:75 | removing every scroll event from a history leaves the menu's final state unchanged |
| Navigation.LinkTapAlwaysCloses | src/components/Navigation.tsx:93 | a mobile link tap closes the menu after any history |
| Navigation.ActiveCountDistinct | src/components/Navigation.tsx:52 | with distinct paths, a listed path activates exactly one item and any other path none |
| Navigation.IsActive | src/components/Navigation.tsx:52-59 | an item is highlighted exactly when the path equals its own path; there is no prefix match |
| Navigation.ExactlyOneActive | src/components/Navigation.tsx:20-26 | on each of the five paths exactly one link is active; on any other path none is |
| Navigation.NavPaths | src/components/Navigation.tsx:20-26 | a path belongs to one of the five items exactly when it is "/", "/projects", "/skills", "/about" or "/contact" |
| Navigation.Render | src/components/Navigation.tsx:50-93 | desktop and mobile list the same five items with the same highlight, active exactly when the path equals the item's; only mobile links close the menu; the icon is X exactly when open |
| Contact.InputChange | src/pages/Contact.tsx:23-29 | the named field takes the value, every other field is copied, and the key set only gains the named field |
| Contact.EditTouchesOneField | src/pages/Contact.tsx:14-29 | editing one of the three inputs keeps the key set and the other two fields |
| Contact.BeginSubmit | src/pages/Contact.tsx:31-40 | submitting raises the flag and sends the form as it stands |
| Contact.FinishSubmit | src/pages/Contact.tsx:42-55 | the flag is cleared on every outcome; delivery empties the form with the success alert; an error or an exception keeps the form with the failure alert |
| Contact.SubmitCycle | src/pages/Contact.tsx:31-56 | a failed submission returns exactly the starting state; a delivered one returns the initial state |
| Contact.EditWhileSending | src/pages/Contact.tsx:23-56 | an edit made while sending is lost on delivery and kept on failure |
| Contact.SubmitButtonFor | src/pages/Contact.tsx:268-281 | the button is disabled exactly while submitting, with "Sending..." then and "Send Message" otherwise |
| Contact.ButtonReenabledAfterEveryOutcome | src/pages/Contact.tsx:31-56 | the button is disabled while the request is pending and enabled after every outcome |
| Contact.Cards | src/pages/Contact.tsx:105-160 | at most one email, one phone and one location card, in that order; each appears exactly when its field is a non-empty string, and carries that field |
| Contact.Socials | src/pages/Contact.tsx:167-200 | at most one GitHub, one LinkedIn and one mail link, in that order; each appears exactly when its field is a non-empty string, and carries that field |
| Contact.Render | src/pages/Contact.tsx:58-77 | the loading view exactly while loading; the failure view exactly when personal info is absent; otherwise the cards and links |
| Footer.SocialLinks | src/components/Footer.tsx:50-72 | at most three links, each one of the three candidates with its own `href`, usable, in GitHub, LinkedIn, Email order; GitHub and LinkedIn are kept exactly when usable; the mail link is dropped exactly when the email prints as "undefined" |
| Footer.Usable | src/components/Footer.tsx:72 | the filter: a link is kept when its `href` is a non-empty string other than "#" and "mailto:undefined" |
| Footer.FilterFacts | src/components/Footer.tsx:50-72 | for any GitHub, LinkedIn and Email candidates in that order, the filter keeps at most three usable links in rank order, and keeps a site exactly when its candidate is usable |
| Footer.MailUsable | src/components/Footer.tsx:67-72 | the mail candidate passes the filter exactly when the address does not print as "undefined" |
| Footer.NoInfoNoLinks | src/components/Footer.tsx:50-72 | without personal info the footer shows no social link |
| Footer.DisplayName | src/components/Footer.tsx:123 | the heading name is never empty; it is the person's name when that is non-empty and "Praveen Yadav" otherwise |
| Footer.CopyrightTail | src/components/Footer.tsx:306 | the text after the copyright sign is a space, the year's digits and a space, then the display name and ". All rights reserved." |
| Footer.CopyrightAsWritten | src/components/Footer.tsx:306 | the line as the file renders it starts with 'Â' and '©' and ends with the display name and ". All rights reserved." |
| Footer.Copyright | src/components/Footer.tsx:306 | the intended line starts with '©' and ends with the display name and ". All rights reserved." |
| Footer.CopyrightMojibake | src/components/Footer.tsx:306 | the written line is the intended one with a stray 'Â' in front, so the two always differ |
| Footer.NewsletterSubmit | src/components/Footer.tsx:81-94 | a subscription happens exactly for a non-empty value, and the field ends up empty |
| Footer.NewsletterAtMostOnce | src/components/Footer.tsx:81-94 | submitting twice in a row subscribes at most once |
| Footer.QuickLinkClick | src/components/Footer.tsx:196-203 | a '#' link never navigates: it scrolls to its target when the target exists and does nothing otherwise; any other link is followed |
| Footer.QuickLinksStayOnPage | src/components/Footer.tsx:35-40 | every quick link starts with '#', so none navigates away |
| Home.FirstIndex | src/pages/Home.tsx:40 | the first occurrence of a character: it is there, and it does not occur before |
| Home.ReplaceFirst | src/pages/Home.tsx:40 | `replace(' ', '_')` keeps the length; the first space becomes '_' and every other position keeps its character; a string without a space is unchanged |
| Home.ReplaceFirstCount | src/pages/Home.tsx:40 | replacing removes exactly one space when there is one |
| Home.ResumeDownload | src/pages/Home.tsx:36-53 | with a `resume_url` the link points there; the filename is the name with its first space turned into '_' and every other character kept, then "_Resume.pdf"; without one, the bundled image under its fixed name |
| Home.ResumeFilenameSpaces | src/pages/Home.tsx:37-40 | the filename has one space fewer than the name when the name has a space, and none otherwise |
| Home.FilenameSpaces | src/pages/Home.tsx:40 | a name with its first space replaced, followed by a space-free suffix, has one space fewer than the name when it has any, and none otherwise |
| Home.Socials | src/pages/Home.tsx:143-147 | GitHub and LinkedIn appear exactly when their URL is non-empty, in that order; the mail link always appears, last; every shown link has an href |
| Home.MissingEmailStillLinked | src/pages/Home.tsx:146-147 | with no email the hero still links "mailto:undefined", while the footer drops that link |
| Home.Render | src/pages/Home.tsx:55-106 | loading and failure views as for every page; otherwise the person's name, role and bio, the avatar of the initials rule (the photo at `image_url` exactly when it is set, else the initials), and a social row that always holds the mail link |
| About.IconFor | src/pages/About.tsx:16-21 | the three non-default names pick their own icon exactly; every other value, missing and `null` included, gives Code |
| About.UnknownIconsLookAlike | src/pages/About.tsx:143 | an unknown, missing or `null` icon name draws the same icon as "Code" |
| About.LayoutAt | src/pages/About.tsx:144-168 | even entries use `flex-row` and `pr-8` and enter from x = -100; odd entries use `flex-row-reverse` and `pl-8` and enter from x = 100 |
| About.LayoutAlternates | src/pages/About.tsx:144-168 | neighbouring entries mirror each other; the pattern repeats every two entries; the padding side follows the direction |
| About.HighlightsFor | src/pages/About.tsx:180-184 | the highlights block appears exactly when `highlights` is present and non-empty, and lists them in order |
| About.Timeline | src/pages/About.tsx:142-168 | one card per entry, in order, each with the entry's icon, highlights and the layout for its position |
| About.TimelineZigzag | src/pages/About.tsx:152-154 | consecutive timeline cards sit on opposite sides |
| About.Render | src/pages/About.tsx:23-168 | loading while either fetch is pending; failure when either result is missing; otherwise the bio, the avatar of the initials rule, the quote and the location each shown with their text exactly when non-empty, and one timeline card per entry |

## Left out

- Markup, styling and animation: class strings, motion variants, delays and durations,
  intersection-observer thresholds and the Lottie player.
- The data hooks are not part of this model. Their results enter as a loading flag and
  a `Js` value.
- The remote `send-contact-email` call is not part of this model. It enters as one of
  three outcomes: delivered, returned an error, or threw.
- `alert` and `console` output. The alert text of the contact form is returned as a
  string; the newsletter's alert is reduced to a flag.
- DOM side effects. In `handleDownloadResume` the link element is built and clicked,
  which is modelled as the `(href, filename)` pair. In the footer `scrollIntoView` is
  modelled as the `ScrollTo` effect, and `targetExists` stands for the
  `querySelector` result.
- The scroll listener's add and remove lifecycle. The model sees the stream of scroll
  offsets as events.
- `new Date().getFullYear()` is a parameter of the copyright line.
- `Profile.Split`: JavaScript strings are UTF-16 code units and Dafny's are characters.
  So `n[0]` of a name that starts with an astral character (an emoji, say) gives half
  a surrogate pair in the browser and the whole character here.
- `Projects.StatsAsWritten`: `Object.entries` lists integer-like keys first, in numeric
  order. The model takes the entries in the order it is given them.
- `Projects.StatsAsWritten`: an array is also an `object` and gives index keys. Arrays
  are not modelled as stats values.
- `Projects.StatText`: numbers are safe integers only, magnitude at most 2^53 - 1, for
  which `String(n)` prints every digit. Fractions, `NaN` and `Infinity` are floating
  point. Larger numbers are not exact doubles, and from 10^21 on JavaScript prints them
  in exponent form ("1e+21"). An array value prints as its comma-joined elements
  ("1,2") and has no case in `StatValue`.
- Decimal.IntToString: takes safe integers only, for the reasons in the line above.
- Decimal.IntRoundTrip: holds for safe integers only. Past 2^53 JavaScript's numbers,
  and so its `String(n)`, are not exact.
- `About.IconFor`: a name such as "constructor" or "toString" finds an inherited
  property of the object literal, not the fallback. Only own keys are modelled.
- The browser's own form validation, `required` and `type="email"`, runs before
  the contact form's `handleSubmit` and the footer's `handleNewsletterSubmit`, and is not
  modelled. So `Footer.NewsletterSubmit`'s empty-value branch, and any value that is not
  an email address, cannot be reached from the browser.
- `Contact.InputChange`: the event's `name` is any string. A name outside the three
  inputs adds a key; the form only ever sends the three.
- Static content is not modelled: the footer's services list (all `#` links with no
  handler), its fixed contact lines and fun facts, and Home's four overview cards.
- The project modal component, the parallax background, the glass card wrapper and the
  layout are not part of this model.

## Findings

| source | as written | input that shows it | evidently intended | confidence | as-written member | corrected member |
|---|---|---|---|---|---|---|
| src/pages/Projects.tsx:40-41 | `typeof project.stats === 'object'` holds for `null`, and `Object.entries(null)` throws a TypeError inside the click handler | a project row with `stats: null`; clicking its card throws and the modal never opens | `null` stats fall back to the three default stats like any other non-object | not executed | Projects.NullStatsNeverOpensModal | Projects.NormalizeAgreesUnlessNull |
| src/components/Footer.tsx:306 | the copyright sign is stored as the bytes C3 82 C2 A9, which render as "Â©" | any year and name: the line reads "Â© 2025 …" | "© 2025 …" | not executed | Footer.CopyrightMojibake | Footer.Copyright |

=== FILE: about.dfy ===
/**
  The About page: the hero (avatar, bio, optional quote and location) and the journey
  timeline, whose entries alternate sides and pick their icon from a fixed table.
 */
module About {
  import opened Js
  import opened Seqs
  import opened Profile

  /** One entry of the journey timeline as the content service returns it. */
  datatype TimelineItem = TimelineItem(
    id: string,
    phase: string,
    title: string,
    period: string,
    description: string,
    icon: Js<string>,
    color: string,
    highlights: Js<seq<string>>)

  // ---------------------------------------------------------------------------
  // Icons

  datatype Icon = GraduationCap | Code | Trophy | Target

  /**
    `iconMap[item.icon] || Code`: the four names of the table pick their own icon;
    every other value, `undefined` and `null` included, falls back to Code.
   */
  function IconFor(name: Js<string>): (r: Icon)
    ensures r == GraduationCap <==> name == Val("GraduationCap")
    ensures r == Trophy <==> name == Val("Trophy")
    ensures r == Target <==> name == Val("Target")
    ensures r == Code <==> name !in {Val("GraduationCap"), Val("Trophy"), Val("Target")}
  {
    match name
    case Val(s) =>
      if s == "GraduationCap" then GraduationCap
      else if s == "Code" then Code
      else if s == "Trophy" then Trophy
      else if s == "Target" then Target
      else Code
    case _ => Code
  }

  /** A missing icon name and an unknown one are drawn alike. */
  lemma UnknownIconsLookAlike(s: string)
    requires s !in ["GraduationCap", "Code", "Trophy", "Target"]
    ensures IconFor(Val(s)) == IconFor(Undefined) == IconFor(Null) == IconFor(Val("Code"))
  {
  }

  // ---------------------------------------------------------------------------
  // Alternating layout

  /**
    Where an entry sits: `flex-row-reverse` or `flex-row`, the card's padding side
    (`pl-8` or `pr-8`) and the horizontal offset it slides in from.
   */
  datatype Layout = Layout(reversed: bool, padLeft: bool, enterX: int)

  /** `isEven = index % 2 === 0`: even entries are laid out left-to-right and enter from the left. */
  function LayoutAt(index: nat): (l: Layout)
    ensures index % 2 == 0 ==> l == Layout(false, false, -100)
    ensures index % 2 == 1 ==> l == Layout(true, true, 100)
  {
    var isEven := index % 2 == 0;
    Layout(!isEven, !isEven, if isEven then -100 else 100)
  }

  /** Neighbouring entries mirror each other, and the pattern repeats every two entries. */
  lemma LayoutAlternates(index: nat)
    ensures LayoutAt(index + 1).reversed == !LayoutAt(index).reversed
    ensures LayoutAt(index + 1).padLeft == !LayoutAt(index).padLeft
    ensures LayoutAt(index + 1).enterX == -LayoutAt(index).enterX
    ensures LayoutAt(index + 2) == LayoutAt(index)
    ensures LayoutAt(index).padLeft == LayoutAt(index).reversed
  {
  }

  // ---------------------------------------------------------------------------
  // Timeline cards

  /**
    `item.highlights && item.highlights.length > 0`: the list of highlights, or
    nothing at all when it is missing, `null` or empty.
   */
  datatype HighlightsBlock = NoHighlights | Highlights(entries: seq<string>)

  function HighlightsFor(item: TimelineItem): (h: HighlightsBlock)
    ensures h.Highlights? <==> item.highlights.Val? && |item.highlights.v| > 0
    ensures h.Highlights? ==> h.entries == item.highlights.v
  {
    match item.highlights
    case Val(hs) => if |hs| > 0 then Highlights(hs) else NoHighlights
    case _ => NoHighlights
  }

  datatype TimelineCard = TimelineCard(item: TimelineItem, icon: Icon, layout: Layout, highlights: HighlightsBlock)

  function CardAt(item: TimelineItem, index: nat): TimelineCard {
    TimelineCard(item, IconFor(item.icon), LayoutAt(index), HighlightsFor(item))
  }

  /** `timelineData.map((item, index) => ...)`: one card per entry, in order, laid out by position. */
  function Timeline(items: seq<TimelineItem>): (cards: seq<TimelineCard>)
    ensures |cards| == |items|
    ensures forall i :: 0 <= i < |items| ==> cards[i].item == items[i] && cards[i].layout == LayoutAt(i)
    ensures forall i :: 0 <= i < |items| ==> cards[i].icon == IconFor(items[i].icon)
    ensures forall i :: 0 <= i < |items| ==> cards[i].highlights == HighlightsFor(items[i])
  {
    seq(|items|, i requires 0 <= i < |items| => CardAt(items[i], i))
  }

  /** Consecutive cards of the timeline sit on opposite sides. */
  lemma TimelineZigzag(items: seq<TimelineItem>, i: nat)
    requires i + 1 < |items|
    ensures Timeline(items)[i + 1].layout.reversed != Timeline(items)[i].layout.reversed
  {
    LayoutAlternates(i);
  }

  // ---------------------------------------------------------------------------
  // View

  datatype AboutView = AboutView(
    avatar: Avatar,
    bio: string,
    quote: seq<string>,
    location: seq<string>,
    timeline: seq<TimelineCard>)

  /** Both fetches as the page receives them. */
  datatype AboutData = AboutData(
    personalLoading: bool,
    timelineLoading: bool,
    info: Js<PersonalInfo>,
    timeline: Js<seq<TimelineItem>>)

  /**
    The page: the loading view while either fetch is pending; the failure view when
    either result is missing (an empty timeline still renders); else the hero, whose
    quote and location appear only when set, and the timeline.
   */
  function Render(d: AboutData): (v: Load<AboutView>)
    ensures v.Loading? <==> d.personalLoading || d.timelineLoading
    ensures v.Failed? <==> !(d.personalLoading || d.timelineLoading) && !(d.info.Val? && d.timeline.Val?)
    ensures v.Ready? ==> d.info.Val? && d.timeline.Val? && v.value.timeline == Timeline(d.timeline.v)
    ensures v.Ready? ==> v.value.bio == d.info.v.bio && v.value.avatar == AvatarFor(d.info.v)
    ensures v.Ready? ==> v.value.quote == When(Truthy(d.info.v.quote), Interpolate(d.info.v.quote))
    ensures v.Ready? ==> v.value.location == When(Truthy(d.info.v.location), Interpolate(d.info.v.location))
    ensures v.Ready? ==> (|v.value.quote| > 0 <==> Truthy(d.info.v.quote))
    ensures v.Ready? ==> (|v.value.location| > 0 <==> Truthy(d.info.v.location))
    ensures v.Ready? ==> (v.value.avatar.Photo? <==> Truthy(d.info.v.image_url))
    ensures v.Ready? && v.value.avatar.InitialsBadge? ==> v.value.avatar.text == WordStarts(d.info.v.name)
  {
    if d.personalLoading || d.timelineLoading then Loading
    else if !d.info.Val? || !d.timeline.Val? then Failed
    else
      var p := d.info.v;
      Ready(AboutView(
        AvatarFor(p),
        p.bio,
        When(Truthy(p.quote), Interpolate(p.quote)),
        When(Truthy(p.location), Interpolate(p.location)),
        Timeline(d.timeline.v)))
  }
}

=== FILE: contact.dfy ===
/**
  The Contact page: the three-field form, the submission cycle around the remote
  email function (abstracted to its three possible outcomes), the submit button, and
  the contact cards and links that appear only for the fields that are set.
 */
module Contact {
  import opened Js
  import opened Seqs
  import opened Profile

  /** The form state object: field name to current text. */
  type FormData = map<string, string>

  /** `{ name: "", email: "", message: "" }`: the initial form and the form after a successful send. */
  const EmptyForm: FormData := map["name" := "", "email" := "", "message" := ""]

  datatype ContactState = ContactState(form: FormData, isSubmitting: bool)

  const InitialContactState: ContactState := ContactState(EmptyForm, false)

  /**
    `handleInputChange`: `{ ...prev, [name]: value }` sets the field the event names and
    copies every other field.
   */
  function InputChange(st: ContactState, name: string, value: string): (r: ContactState)
    ensures r.form.Keys == st.form.Keys + {name}
    ensures r.form[name] == value
    ensures forall k :: k in st.form && k != name ==> r.form[k] == st.form[k]
    ensures r.isSubmitting == st.isSubmitting
  {
    st.(form := st.form[name := value])
  }

  /** Editing one of the three inputs leaves the other two as they were and adds no field. */
  lemma EditTouchesOneField(st: ContactState, name: string, value: string)
    requires st.form.Keys == {"name", "email", "message"}
    requires name in {"name", "email", "message"}
    ensures var r := InputChange(st, name, value);
      r.form.Keys == st.form.Keys && forall k :: k in r.form && k != name ==> r.form[k] == st.form[k]
  {
  }

  /** How the awaited `send-contact-email` call ends. */
  datatype SendOutcome = Delivered | ReturnedError | Exception

  const SentNotice: string := "Message sent successfully! I'll get back to you soon."
  const FailedNotice: string := "Failed to send message. Please try again or contact me directly via email."

  /** The request a submission sends: the form as it was when submit was pressed. */
  datatype Request = Request(body: FormData)

  /** The synchronous part of `handleSubmit`, before the `await`: raise the flag and send the form. */
  function BeginSubmit(st: ContactState): (r: (ContactState, Request))
    ensures r.0.isSubmitting && r.0.form == st.form
    ensures r.1.body == st.form
  {
    (st.(isSubmitting := true), Request(st.form))
  }

  /**
    The part after the `await`: on delivery the form is replaced by the empty form, on a
    returned error or a thrown exception it is kept; the `finally` clears the flag
    in every case. Also yields the text of the alert shown.
   */
  function FinishSubmit(st: ContactState, outcome: SendOutcome): (r: (ContactState, string))
    ensures !r.0.isSubmitting
    ensures outcome == Delivered ==> r.0.form == EmptyForm && r.1 == SentNotice
    ensures outcome != Delivered ==> r.0.form == st.form && r.1 == FailedNotice
  {
    match outcome
    case Delivered => (ContactState(EmptyForm, false), SentNotice)
    case _ => (st.(isSubmitting := false), FailedNotice)
  }

  /**
    A whole submission with no edits while it is in flight: a failure gives back the
    starting state exactly, a delivery gives back the initial state.
   */
  lemma SubmitCycle(st: ContactState, outcome: SendOutcome)
    requires !st.isSubmitting
    ensures var after := FinishSubmit(BeginSubmit(st).0, outcome).0;
      (outcome == Delivered ==> after == InitialContactState) && (outcome != Delivered ==> after == st)
  {
  }

  /**
    Edits made while the request is in flight: a delivery discards them (the whole
    form is replaced), a failure keeps them.
   */
  lemma EditWhileSending(st: ContactState, name: string, value: string, outcome: SendOutcome)
    ensures var mid := InputChange(BeginSubmit(st).0, name, value);
      var after := FinishSubmit(mid, outcome).0;
      (outcome == Delivered ==> after.form == EmptyForm) && (outcome != Delivered ==> after.form[name] == value)
  {
  }

  /** The submit button: disabled, with the "Sending..." label, exactly while a submission is in flight. */
  datatype SubmitButton = SubmitButton(disabled: bool, caption: string)

  function SubmitButtonFor(st: ContactState): (b: SubmitButton)
    ensures b.disabled <==> st.isSubmitting
    ensures b.caption == (if st.isSubmitting then "Sending..." else "Send Message")
  {
    if st.isSubmitting then SubmitButton(true, "Sending...") else SubmitButton(false, "Send Message")
  }

  /** Across a submission the button is disabled while waiting and enabled again after every outcome. */
  lemma ButtonReenabledAfterEveryOutcome(st: ContactState, outcome: SendOutcome)
    ensures SubmitButtonFor(BeginSubmit(st).0).disabled
    ensures !SubmitButtonFor(FinishSubmit(BeginSubmit(st).0, outcome).0).disabled
  {
  }

  // ---------------------------------------------------------------------------
  // View

  datatype ContactCard = EmailCard(href: string, text: string) | PhoneCard(href: string, text: string) | LocationCard(text: string)

  datatype SocialLink = GitHubLink(href: string) | LinkedInLink(href: string) | MailLink(href: string)

  datatype ContactPage = ContactPage(cards: seq<ContactCard>, socials: seq<SocialLink>)

  /** `x` is in `xs` when `cond` holds, and every element of `xs` of `x`'s kind (its rank) is `x` and needs `cond`. */
  predicate ShownExactlyWhen<T(==)>(xs: seq<T>, rank: T -> int, x: T, cond: bool) {
    (cond ==> x in xs) && forall y :: y in xs && rank(y) == rank(x) ==> cond && y == x
  }

  /**
    Three conditional elements of increasing rank, written one after another: each one
    is shown exactly when its condition holds, at most once, and in rank order.
   */
  lemma WhenShown<T>(c1: bool, x1: T, c2: bool, x2: T, c3: bool, x3: T, rank: T -> int)
    requires rank(x1) < rank(x2) < rank(x3)
    ensures var r := When(c1, x1) + When(c2, x2) + When(c3, x3);
      && |r| <= 3
      && (forall i, j :: 0 <= i < j < |r| ==> rank(r[i]) < rank(r[j]))
      && ShownExactlyWhen(r, rank, x1, c1)
      && ShownExactlyWhen(r, rank, x2, c2)
      && ShownExactlyWhen(r, rank, x3, c3)
  {
    var a, b, e := When(c1, x1), When(c2, x2), When(c3, x3);
    WhenOrdered(c1, x1, c2, x2, c3, x3, rank);
    assert forall y :: y in a + b + e <==> y in a || y in b || y in e;
  }

  /** The order the page lays the cards out in. */
  function CardRank(c: ContactCard): int {
    match c
    case EmailCard(_, _) => 0
    case PhoneCard(_, _) => 1
    case LocationCard(_) => 2
  }

  /** The order the page lays the social links out in. */
  function LinkRank(l: SocialLink): int {
    match l
    case GitHubLink(_) => 0
    case LinkedInLink(_) => 1
    case MailLink(_) => 2
  }

  /** The email, phone and location cards, in that order, each present exactly when its field is set. */
  function Cards(p: PersonalInfo): (cards: seq<ContactCard>)
    ensures |cards| <= 3
    ensures forall i, j :: 0 <= i < j < |cards| ==> CardRank(cards[i]) < CardRank(cards[j])
    ensures ShownExactlyWhen(cards, CardRank, EmailCard("mailto:" + Interpolate(p.email), Interpolate(p.email)), Truthy(p.email))
    ensures ShownExactlyWhen(cards, CardRank, PhoneCard("tel:" + Interpolate(p.phone), Interpolate(p.phone)), Truthy(p.phone))
    ensures ShownExactlyWhen(cards, CardRank, LocationCard(Interpolate(p.location)), Truthy(p.location))
  {
    var email := EmailCard("mailto:" + Interpolate(p.email), Interpolate(p.email));
    var phone := PhoneCard("tel:" + Interpolate(p.phone), Interpolate(p.phone));
    var location := LocationCard(Interpolate(p.location));
    WhenShown(Truthy(p.email), email, Truthy(p.phone), phone, Truthy(p.location), location, CardRank);
    When(Truthy(p.email), email) + When(Truthy(p.phone), phone) + When(Truthy(p.location), location)
  }

  /** The GitHub, LinkedIn and mail links, in that order, each present exactly when its field is set. */
  function Socials(p: PersonalInfo): (links: seq<SocialLink>)
    ensures |links| <= 3
    ensures forall i, j :: 0 <= i < j < |links| ==> LinkRank(links[i]) < LinkRank(links[j])
    ensures ShownExactlyWhen(links, LinkRank, GitHubLink(Interpolate(p.github_url)), Truthy(p.github_url))
    ensures ShownExactlyWhen(links, LinkRank, LinkedInLink(Interpolate(p.linkedin_url)), Truthy(p.linkedin_url))
    ensures ShownExactlyWhen(links, LinkRank, MailLink("mailto:" + Interpolate(p.email)), Truthy(p.email))
  {
    var github := GitHubLink(Interpolate(p.github_url));
    var linkedin := LinkedInLink(Interpolate(p.linkedin_url));
    var mail := MailLink("mailto:" + Interpolate(p.email));
    WhenShown(Truthy(p.github_url), github, Truthy(p.linkedin_url), linkedin, Truthy(p.email), mail, LinkRank);
    When(Truthy(p.github_url), github) + When(Truthy(p.linkedin_url), linkedin) + When(Truthy(p.email), mail)
  }

  /** The page: loading view while loading, failure view without personal info, else the cards and links. */
  function Render(isLoading: bool, info: Js<PersonalInfo>): (v: Load<ContactPage>)
    ensures v.Loading? <==> isLoading
    ensures v.Failed? <==> !isLoading && !info.Val?
    ensures v.Ready? ==> info.Val? && v.value == ContactPage(Cards(info.v), Socials(info.v))
  {
    match Resolve(isLoading, info)
    case Loading => Loading
    case Failed => Failed
    case Ready(p) => Ready(ContactPage(Cards(p), Socials(p)))
  }
}

=== FILE: decimal.dfy ===
/**
  Decimal rendering of integers, as JavaScript's `String(n)` and `${n}` produce it for
  safe integers: digits without leading zeros, a leading '-' for negatives.
 */
module Decimal {

  /** `Number.MAX_SAFE_INTEGER`, 2^53 - 1: every integer up to it in magnitude is an exact double. */
  const MaxSafeInteger: int := 0x1F_FFFF_FFFF_FFFF

  /** The integers a JavaScript number holds exactly. */
  type SafeInteger = n: int | -MaxSafeInteger <= n <= MaxSafeInteger

  predicate IsDigit(c: char) {
    '0' <= c <= '9'
  }

  function DigitChar(d: nat): (c: char)
    requires d < 10
    ensures IsDigit(c)
  {
    ['0', '1', '2', '3', '4', '5', '6', '7', '8', '9'][d]
  }

  function DigitValue(c: char): (d: nat)
    requires IsDigit(c)
    ensures d < 10
  {
    if c == '0' then 0 else if c == '1' then 1 else if c == '2' then 2
    else if c == '3' then 3 else if c == '4' then 4 else if c == '5' then 5
    else if c == '6' then 6 else if c == '7' then 7 else if c == '8' then 8 else 9
  }

  predicate AllDigits(s: string) {
    forall i :: 0 <= i < |s| ==> IsDigit(s[i])
  }

  /** The decimal digits of `n`, most significant first. */
  function NatToString(n: nat): (s: string)
    ensures |s| > 0
    ensures AllDigits(s)
    ensures |s| > 1 ==> s[0] != '0'
  {
    if n < 10 then [DigitChar(n)] else NatToString(n / 10) + [DigitChar(n % 10)]
  }

  /** An optional '-' followed by at least one decimal digit. */
  predicate SignedDecimal(s: string) {
    && |s| > 0
    && (s[0] == '-' ==> |s| > 1 && AllDigits(s[1..]))
    && (s[0] != '-' ==> AllDigits(s))
  }

  /**
    `String(n)` for a safe integer. At most sixteen digits are printed, well below the
    twenty-two at which JavaScript switches to exponent form, so every digit is printed.
   */
  function IntToString(n: SafeInteger): (s: string)
    ensures SignedDecimal(s)
    ensures n < 0 <==> s[0] == '-'
    ensures n >= 0 ==> s == NatToString(n)
    ensures |s| <= 17
  {
    if n < 0 then
      var digits := NatToString(-n);
      SafeDigits(-n);
      assert ("-" + digits)[1..] == digits;
      "-" + digits
    else
      SafeDigits(n);
      NatToString(n)
  }

  /** A number below `10^k` has at most `k` digits. */
  lemma {:induction false} DigitCount(n: nat, k: nat, bound: nat)
    requires k > 0 && bound == Pow10(k) && n < bound
    ensures |NatToString(n)| <= k
  {
    if n >= 10 {
      assert k > 1;
      DivBound(n, Pow10(k - 1));
      DigitCount(n / 10, k - 1, Pow10(k - 1));
    }
  }

  lemma DivBound(n: nat, b: nat)
    requires n < 10 * b
    ensures n / 10 < b
  {
  }

  function Pow10(k: nat): nat {
    if k == 0 then 1 else 10 * Pow10(k - 1)
  }

  lemma {:induction false} Pow10Add(a: nat, b: nat)
    ensures Pow10(a + b) == Pow10(a) * Pow10(b)
  {
    if a > 0 {
      Pow10Add(a - 1, b);
    }
  }

  /** A safe integer has at most sixteen digits. */
  lemma SafeDigits(n: nat)
    requires n <= MaxSafeInteger
    ensures |NatToString(n)| <= 16
  {
    assert Pow10(2) == 100;
    Pow10Add(2, 2);
    Pow10Add(4, 4);
    Pow10Add(8, 8);
    DigitCount(n, 16, Pow10(16));
  }

  /** The value of a string of decimal digits: the reference reading of `NatToString`. */
  function ParseNat(s: string): nat
    requires AllDigits(s)
  {
    if |s| == 0 then 0 else 10 * ParseNat(s[..|s| - 1]) + DigitValue(s[|s| - 1])
  }

  /** The value of `IntToString`'s output read back as a signed decimal. */
  function ParseInt(s: string): int
    requires SignedDecimal(s)
  {
    if s[0] == '-' then 0 - ParseNat(s[1..]) as int else ParseNat(s)
  }

  lemma DigitRoundTrip(d: nat)
    requires d < 10
    ensures DigitValue(DigitChar(d)) == d
  {
  }

  /** Reading back the digits of `n` gives `n`. */
  lemma {:induction false} NatRoundTrip(n: nat)
    ensures ParseNat(NatToString(n)) == n
  {
    DigitRoundTrip(n % 10);
    if n >= 10 {
      NatRoundTrip(n / 10);
      var s := NatToString(n);
      assert s[..|s| - 1] == NatToString(n / 10);
    }
  }

  /** Reading back `IntToString(n)` as a signed decimal gives `n`, so distinct numbers print differently. */
  lemma {:induction false} IntRoundTrip(n: SafeInteger)
    ensures ParseInt(IntToString(n)) == n
  {
    if n < 0 {
      NegativeRoundTrip(n);
    } else {
      NatRoundTrip(n);
    }
  }

  /** A negative number prints as '-' followed by the digits of its magnitude, and reads back. */
  lemma NegativeRoundTrip(n: SafeInteger)
    requires n < 0
    ensures IntToString(n) == "-" + NatToString(-n)
    ensures ParseInt(IntToString(n)) == n
  {
    var digits := NatToString(-n);
    assert IntToString(n) == "-" + digits;
    ParseSigned(digits);
    NatRoundTrip(-n);
  }

  /** A '-' in front of a digit string negates its value. */
  lemma ParseSigned(digits: string)
    requires |digits| > 0 && AllDigits(digits)
    ensures SignedDecimal("-" + digits) && ParseInt("-" + digits) == 0 - ParseNat(digits) as int
  {
    assert ("-" + digits)[1..] == digits;
  }
}

=== FILE: footer.dfy ===
/**
  The site footer: the social-link filter, the name shown in the heading and the
  copyright line, the newsletter form's submit guard and the in-page quick links.
 */
module Footer {
  import opened Js
  import opened Seqs
  import opened Decimal
  import opened Profile

  /** One candidate social link: which site, and the `href` computed for it. */
  datatype Social = Social(site: Site, href: Js<string>)

  /** `personalInfo?.github_url` and friends: missing whenever the whole record is missing. */
  function Field(info: Js<PersonalInfo>, f: Site): Js<string> {
    match info
    case Val(p) => (match f case GitHub => p.github_url case LinkedIn => p.linkedin_url case Email => p.email)
    case _ => Undefined
  }

  /** The three candidates in display order; the mail link's `href` is the template `mailto:${personalInfo?.email}`. */
  function Candidates(info: Js<PersonalInfo>): seq<Social> {
    [
      Social(GitHub, Field(info, GitHub)),
      Social(LinkedIn, Field(info, LinkedIn)),
      Social(Email, Val("mailto:" + Interpolate(Field(info, Email))))
    ]
  }

  /** `social.href && social.href !== '#' && social.href !== 'mailto:undefined'`. */
  predicate Usable(s: Social) {
    Truthy(s.href) && s.href.v != "#" && s.href.v != "mailto:undefined"
  }

  function UsableSocial(): Social -> bool {
    (s: Social) => Usable(s)
  }

  function SiteRank(site: Site): nat {
    match site
    case GitHub => 0
    case LinkedIn => 1
    case Email => 2
  }

  /** A link with a usable `href` for `site` among the kept ones. */
  predicate Kept(r: seq<Social>, site: Site) {
    exists i :: 0 <= i < |r| && r[i].site == site
  }

  /**
    The footer's social links: at most three, each one of the candidates with a usable `href`, in the order
    GitHub, LinkedIn, Email. GitHub and LinkedIn are kept exactly when their URL is set
    and is not "#" (nor "mailto:undefined"); the mail link is dropped exactly when the
    email interpolates to "undefined" (no personal info, or no email field), so a
    `null` email still yields a "mailto:null" link.
   */
  function SocialLinks(info: Js<PersonalInfo>): (r: seq<Social>)
    ensures |r| <= 3
    ensures forall i :: 0 <= i < |r| ==> r[i] in Candidates(info) && Usable(r[i])
    ensures forall i, j :: 0 <= i < j < |r| ==> SiteRank(r[i].site) < SiteRank(r[j].site)
    ensures Kept(r, GitHub) <==> Usable(Social(GitHub, Field(info, GitHub)))
    ensures Kept(r, LinkedIn) <==> Usable(Social(LinkedIn, Field(info, LinkedIn)))
    ensures Kept(r, Email) <==> Interpolate(Field(info, Email)) != "undefined"
  {
    var c := Candidates(info);
    FilterFacts(c);
    MailUsable(Interpolate(Field(info, Email)));
    Filter(c, UsableSocial())
  }

  /**
    For any three candidates for GitHub, LinkedIn and Email in that order: the filter
    keeps at most three usable links in rank order, and keeps a site exactly when its
    candidate is usable.
   */
  lemma FilterFacts(c: seq<Social>)
    requires |c| == 3 && c[0].site == GitHub && c[1].site == LinkedIn && c[2].site == Email
    ensures var r := Filter(c, UsableSocial());
      && |r| <= 3
      && (forall i :: 0 <= i < |r| ==> r[i] in c && Usable(r[i]))
      && (forall i, j :: 0 <= i < j < |r| ==> SiteRank(r[i].site) < SiteRank(r[j].site))
      && (Kept(r, GitHub) <==> Usable(c[0]))
      && (Kept(r, LinkedIn) <==> Usable(c[1]))
      && (Kept(r, Email) <==> Usable(c[2]))
  {
    var a, b, e := Keep(c[0]), Keep(c[1]), Keep(c[2]);
    FilterCandidates(c);
    RankOrdered(a, b, e);
    KeptSite(a, b, e, c, GitHub);
    KeptSite(a, b, e, c, LinkedIn);
    KeptSite(a, b, e, c, Email);
  }

  /** The mail link is usable exactly when the address does not print as "undefined". */
  lemma MailUsable(x: string)
    ensures Usable(Social(Email, Val("mailto:" + x))) <==> x != "undefined"
  {
    MailtoUndefined(x);
    assert ("mailto:" + x)[0] == 'm';
  }

  /** The one-element filter result for a single candidate. */
  function Keep(s: Social): (r: seq<Social>)
    ensures |r| <= 1
    ensures forall x :: x in r ==> x == s && Usable(s)
    ensures Usable(s) ==> r == [s]
  {
    if Usable(s) then [s] else []
  }

  /** Filtering three candidates is filtering each one and concatenating. */
  lemma FilterCandidates(c: seq<Social>)
    requires |c| == 3
    ensures Filter(c, UsableSocial()) == Keep(c[0]) + Keep(c[1]) + Keep(c[2])
  {
    var k := UsableSocial();
    assert Filter(c[2..], k) == Keep(c[2]) by {
      assert c[2..][1..] == [];
    }
    assert Filter(c[1..], k) == Keep(c[1]) + Filter(c[2..], k) by {
      assert c[1..][1..] == c[2..];
    }
  }

  /** Each kept link is usable, and links from lower-ranked groups come first. */
  lemma RankOrdered(a: seq<Social>, b: seq<Social>, e: seq<Social>)
    requires |a| <= 1 && |b| <= 1 && |e| <= 1
    requires forall x :: x in a ==> x.site == GitHub && Usable(x)
    requires forall x :: x in b ==> x.site == LinkedIn && Usable(x)
    requires forall x :: x in e ==> x.site == Email && Usable(x)
    ensures |a + b + e| <= 3
    ensures forall i :: 0 <= i < |a + b + e| ==> Usable((a + b + e)[i])
    ensures forall i, j :: 0 <= i < j < |a + b + e| ==> SiteRank((a + b + e)[i].site) < SiteRank((a + b + e)[j].site)
  {
    var r := a + b + e;
    forall i | 0 <= i < |r|
      ensures Usable(r[i]) && SiteRank(r[i].site) == if i < |a| then 0 else if i < |a| + |b| then 1 else 2
    {
      if i < |a| {
        assert r[i] == a[i];
      } else if i < |a| + |b| {
        assert r[i] == b[i - |a|];
      } else {
        assert r[i] == e[i - |a| - |b|];
      }
    }
  }

  /** With one candidate per site, a site is kept exactly when its own candidate is. */
  lemma KeptSite(a: seq<Social>, b: seq<Social>, e: seq<Social>, c: seq<Social>, site: Site)
    requires |c| == 3 && c[0].site == GitHub && c[1].site == LinkedIn && c[2].site == Email
    requires a == Keep(c[0]) && b == Keep(c[1]) && e == Keep(c[2])
    ensures Kept(a + b + e, site) <==> exists k :: 0 <= k < 3 && c[k].site == site && Usable(c[k])
  {
    var r := a + b + e;
    if Kept(r, site) {
      var i :| 0 <= i < |r| && r[i].site == site;
      assert r[i] in a || r[i] in b || r[i] in e;
    }
    if c[0].site == site && Usable(c[0]) {
      assert r[0].site == site;
    }
    if c[1].site == site && Usable(c[1]) {
      assert r[|a|].site == site;
    }
    if c[2].site == site && Usable(c[2]) {
      assert r[|a| + |b|].site == site;
    }
  }

  /** A `mailto:` link equals "mailto:undefined" exactly when the interpolated address is "undefined". */
  lemma MailtoUndefined(x: string)
    ensures "mailto:" + x == "mailto:undefined" <==> x == "undefined"
  {
    if "mailto:" + x == "mailto:undefined" {
      assert x == ("mailto:" + x)[7..];
    }
  }

  /** With no personal info nothing is shown: every candidate's `href` is missing or "mailto:undefined". */
  lemma NoInfoNoLinks()
    ensures SocialLinks(Undefined) == []
  {
  }

  /** `personalInfo?.name || 'Praveen Yadav'`: never empty, and the real name whenever there is one. */
  function DisplayName(info: Js<PersonalInfo>): (r: string)
    ensures r != ""
    ensures info.Val? && info.v.name != "" ==> r == info.v.name
    ensures !(info.Val? && info.v.name != "") ==> r == "Praveen Yadav"
  {
    match info
    case Val(p) => if p.name != "" then p.name else "Praveen Yadav"
    case _ => "Praveen Yadav"
  }

  const Suffix: string := ". All rights reserved."

  /** What follows the copyright sign: ` {currentYear} {name}. All rights reserved.`, ending in the heading's name. */
  function CopyrightTail(year: SafeInteger, info: Js<PersonalInfo>): (t: string)
    ensures var name := DisplayName(info) + Suffix; |name| < |t| && t[|t| - |name|..] == name
    ensures var name := DisplayName(info) + Suffix; t[..|t| - |name|] == " " + IntToString(year) + " "
  {
    var lead := " " + IntToString(year) + " ";
    var name := DisplayName(info) + Suffix;
    assert (lead + name)[|lead|..] == name;
    assert (lead + name)[..|lead|] == lead;
    lead + name
  }

  /**
    The copyright line as the file renders it: the file stores the copyright sign's
    UTF-8 bytes re-encoded once more, so the page shows "Â©" where "©" is meant.
   */
  function CopyrightAsWritten(year: SafeInteger, info: Js<PersonalInfo>): (r: string)
    ensures |r| > 2 && r[0] == 'Â' && r[1] == '©'
    ensures var name := DisplayName(info) + Suffix; |name| < |r| && r[|r| - |name|..] == name
  {
    var t := CopyrightTail(year, info);
    TwoCharPrefix('Â', '©', t, |DisplayName(info) + Suffix|);
    ['Â', '©'] + t
  }

  /** Two characters in front of `t`: they come first, and `t`'s last `k` characters stay last. */
  lemma TwoCharPrefix(x: char, y: char, t: string, k: nat)
    requires k <= |t|
    ensures |[x, y] + t| == |t| + 2 && ([x, y] + t)[0] == x && ([x, y] + t)[1] == y
    ensures ([x, y] + t)[|t| + 2 - k..] == t[|t| - k..]
  {
  }

  /**
    The copyright line as intended: the copyright sign, then the year and the same
    name as the heading, then the fixed suffix.
   */
  function Copyright(year: SafeInteger, info: Js<PersonalInfo>): (r: string)
    ensures |r| > 0 && r[0] == '©'
    ensures var name := DisplayName(info) + Suffix; |name| < |r| && r[|r| - |name|..] == name
    ensures r[1..] == CopyrightTail(year, info)
  {
    var t := CopyrightTail(year, info);
    SuffixAfterPrefix("©", t, |DisplayName(info) + Suffix|);
    "©" + t
  }

  /** The written line is the intended one with a stray 'Â' in front, so the two never agree. */
  lemma CopyrightMojibake(year: SafeInteger, info: Js<PersonalInfo>)
    ensures |CopyrightAsWritten(year, info)| > 0 && CopyrightAsWritten(year, info)[0] == 'Â'
    ensures CopyrightAsWritten(year, info)[1..] == Copyright(year, info)
    ensures CopyrightAsWritten(year, info) != Copyright(year, info)
  {
    DropFirst('Â', '©', CopyrightTail(year, info));
  }

  /** Prefixing a string does not change its last `k` characters. */
  lemma SuffixAfterPrefix(a: string, t: string, k: nat)
    requires k <= |t|
    ensures (a + t)[|a + t| - k..] == t[|t| - k..]
  {
  }

  /** Dropping the first of two leading characters. */
  lemma DropFirst(x: char, y: char, t: string)
    ensures [x, y] + t != [y] + t
    ensures ([x, y] + t)[0] == x && ([x, y] + t)[1..] == [y] + t
  {
    assert |[x, y] + t| != |[y] + t|;
  }

  // ---------------------------------------------------------------------------
  // Newsletter form

  datatype NewsletterResult = NewsletterResult(subscribed: bool, fieldAfter: string)

  /** `handleNewsletterSubmit`: acts (thanks the user and resets the field) only for a non-empty value. */
  function NewsletterSubmit(value: string): (r: NewsletterResult)
    ensures r.subscribed <==> value != ""
    ensures r.fieldAfter == ""
  {
    if value != "" then NewsletterResult(true, "") else NewsletterResult(false, value)
  }

  /** Submitting twice subscribes at most once: the first submit empties the field. */
  lemma NewsletterAtMostOnce(value: string)
    ensures !NewsletterSubmit(NewsletterSubmit(value).fieldAfter).subscribed
  {
  }

  // ---------------------------------------------------------------------------
  // Quick links

  datatype QuickLink = QuickLink(name: string, href: string)

  const FooterNavigation: seq<QuickLink> := [
    QuickLink("Home", "#home"),
    QuickLink("About", "#about"),
    QuickLink("Projects", "#projects"),
    QuickLink("Skills", "#skills"),
    QuickLink("Contact", "#contact")
  ]

  /** What a click on a quick link does. */
  datatype ClickEffect = FollowLink(href: string) | ScrollTo(selector: string) | StayPut

  /**
    The quick-link click handler: a `#` link suppresses navigation and scrolls to the
    element it selects, if there is one; any other link is followed.
   */
  function QuickLinkClick(href: string, targetExists: bool): (e: ClickEffect)
    ensures StartsWith(href, "#") ==> !e.FollowLink?
    ensures StartsWith(href, "#") && targetExists ==> e == ScrollTo(href)
    ensures StartsWith(href, "#") && !targetExists ==> e == StayPut
    ensures !StartsWith(href, "#") ==> e == FollowLink(href)
  {
    if StartsWith(href, "#") then (if targetExists then ScrollTo(href) else StayPut)
    else FollowLink(href)
  }

  /** No quick link ever navigates away: each one scrolls to its section or stays put. */
  lemma QuickLinksStayOnPage(i: int, targetExists: bool)
    requires 0 <= i < |FooterNavigation|
    ensures StartsWith(FooterNavigation[i].href, "#")
    ensures !QuickLinkClick(FooterNavigation[i].href, targetExists).FollowLink?
  {
  }
}

=== FILE: home.dfy ===
/**
  The landing page: the hero avatar, the resume download (the personal resume when
  one is configured, a bundled fallback otherwise) and the row of social links.
 */
module Home {
  import opened Js
  import opened Seqs
  import opened Profile
  import Footer

  // ---------------------------------------------------------------------------
  // `String.prototype.replace` with a string pattern

  /** The position of the first occurrence of `c` in `s`. */
  function FirstIndex(s: string, c: char): (i: nat)
    requires c in s
    ensures i < |s| && s[i] == c && c !in s[..i]
  {
    if s[0] == c then 0
    else
      var i := 1 + FirstIndex(s[1..], c);
      assert s[..i] == [s[0]] + s[1..][..i - 1];
      i
  }

  /**
    `s.replace(c, d)` with a one-character string pattern: the length is kept, the first
    occurrence of `c` becomes `d`, and every other position keeps its character.
   */
  function ReplaceFirst(s: string, c: char, d: char): (r: string)
    ensures |r| == |s|
    ensures forall j :: 0 <= j < |s| ==> r[j] == if c in s && j == FirstIndex(s, c) then d else s[j]
    ensures c !in s ==> r == s
  {
    if |s| == 0 then s
    else if s[0] == c then [d] + s[1..]
    else
      var rest := ReplaceFirst(s[1..], c, d);
      assert c in s <==> c in s[1..];
      [s[0]] + rest
  }

  /** The number of occurrences of `c` in `s`. */
  function Count(s: string, c: char): nat {
    if |s| == 0 then 0 else (if s[0] == c then 1 else 0) + Count(s[1..], c)
  }

  /** Replacing the first `c` by a different character removes exactly one `c`, if there is one. */
  lemma {:induction false} ReplaceFirstCount(s: string, c: char, d: char)
    requires c != d
    ensures Count(ReplaceFirst(s, c, d), c) == if c in s then Count(s, c) - 1 else Count(s, c)
  {
    if |s| > 0 {
      var r := ReplaceFirst(s, c, d);
      if s[0] == c {
        assert r[1..] == s[1..];
      } else {
        ReplaceFirstCount(s[1..], c, d);
        assert r[1..] == ReplaceFirst(s[1..], c, d);
        assert c in s <==> c in s[1..];
      }
    }
  }

  // ---------------------------------------------------------------------------
  // Resume download

  /** The link `handleDownloadResume` builds and clicks. */
  datatype Download = Download(href: string, filename: string)

  const FallbackHref: string := "/resume/praveenyadavresume.png"
  const FallbackFilename: string := "Praveen_Yadav_Resume.png"
  const PdfSuffix: string := "_Resume.pdf"

  /**
    With a `resume_url`, the link points there and the file is named after the person,
    the first space of the name turned into '_', with "_Resume.pdf" appended; without
    one, the bundled image is downloaded under its fixed name.
   */
  function ResumeDownload(p: PersonalInfo): (d: Download)
    ensures Truthy(p.resume_url) ==> d.href == p.resume_url.v
    ensures Truthy(p.resume_url) ==>
      |d.filename| == |p.name| + |PdfSuffix| && d.filename[|p.name|..] == PdfSuffix
    ensures Truthy(p.resume_url) ==> forall i :: 0 <= i < |p.name| ==>
      d.filename[i] == if ' ' in p.name && i == FirstIndex(p.name, ' ') then '_' else p.name[i]
    ensures !Truthy(p.resume_url) ==> d == Download(FallbackHref, FallbackFilename)
  {
    if Truthy(p.resume_url) then
      var f := ReplaceFirst(p.name, ' ', '_') + PdfSuffix;
      assert f[|p.name|..] == PdfSuffix;
      Download(p.resume_url.v, f)
    else Download(FallbackHref, FallbackFilename)
  }

  /**
    Only the first space is replaced: a two-word name gives a filename without spaces,
    and each further space of the name survives into the filename.
   */
  lemma ResumeFilenameSpaces(p: PersonalInfo)
    requires Truthy(p.resume_url)
    ensures Count(ResumeDownload(p).filename, ' ') == if ' ' in p.name then Count(p.name, ' ') - 1 else 0
  {
    assert ' ' !in PdfSuffix;
    FilenameSpaces(p.name, PdfSuffix);
  }

  /** Spaces in the name with its first space replaced, then a space-free suffix. */
  lemma FilenameSpaces(name: string, suffix: string)
    requires ' ' !in suffix
    ensures Count(ReplaceFirst(name, ' ', '_') + suffix, ' ') == if ' ' in name then Count(name, ' ') - 1 else 0
  {
    ReplaceFirstCount(name, ' ', '_');
    CountAppend(ReplaceFirst(name, ' ', '_'), suffix, ' ');
    CountAbsent(suffix, ' ');
    if ' ' !in name {
      CountAbsent(name, ' ');
    }
  }

  lemma {:induction false} CountAppend(a: string, b: string, c: char)
    ensures Count(a + b, c) == Count(a, c) + Count(b, c)
  {
    if |a| > 0 {
      CountAppend(a[1..], b, c);
      assert (a + b)[1..] == a[1..] + b;
    } else {
      assert a + b == b;
    }
  }

  lemma {:induction false} CountAbsent(s: string, c: char)
    ensures c !in s <==> Count(s, c) == 0
  {
    if |s| > 0 {
      CountAbsent(s[1..], c);
      assert c in s <==> s[0] == c || c in s[1..];
    }
  }

  // ---------------------------------------------------------------------------
  // Social links

  /** One candidate of the hero's social row. */
  datatype HomeSocial = HomeSocial(site: Site, href: Js<string>)

  /** The mail candidate: `mailto:${personalInfo.email}`, which is never empty. */
  function MailSocial(p: PersonalInfo): HomeSocial {
    HomeSocial(Email, Val("mailto:" + Interpolate(p.email)))
  }

  function Candidates(p: PersonalInfo): seq<HomeSocial> {
    [HomeSocial(GitHub, p.github_url), HomeSocial(LinkedIn, p.linkedin_url), MailSocial(p)]
  }

  function HasHref(): HomeSocial -> bool {
    (s: HomeSocial) => Truthy(s.href)
  }

  /**
    `.filter(social => social.href)`: GitHub and LinkedIn appear exactly when their URL is
    a non-empty string, in that order, and the mail link always appears, last.
   */
  function Socials(p: PersonalInfo): (r: seq<HomeSocial>)
    ensures r == When(Truthy(p.github_url), HomeSocial(GitHub, p.github_url))
      + When(Truthy(p.linkedin_url), HomeSocial(LinkedIn, p.linkedin_url))
      + [MailSocial(p)]
    ensures forall i :: 0 <= i < |r| ==> Truthy(r[i].href)
  {
    var c := Candidates(p);
    assert c == [c[0]] + [c[1]] + [c[2]];
    FilterAppend([c[0]] + [c[1]], [c[2]], HasHref());
    FilterAppend([c[0]], [c[1]], HasHref());
    Filter(c, HasHref())
  }

  /**
    The hero and the footer disagree on a missing email: the hero keeps its
    "mailto:undefined" link, the footer drops it.
   */
  lemma MissingEmailStillLinked(p: PersonalInfo)
    requires p.email == Undefined
    ensures HomeSocial(Email, Val("mailto:undefined")) in Socials(p)
    ensures !Footer.Kept(Footer.SocialLinks(Val(p)), Email)
  {
    var r := Socials(p);
    assert Interpolate(p.email) == "undefined";
    assert "mailto:" + "undefined" == "mailto:undefined";
    assert r[|r| - 1] == MailSocial(p);
  }

  // ---------------------------------------------------------------------------
  // View

  datatype HomeView = HomeView(avatar: Avatar, name: string, role: string, bio: string, socials: seq<HomeSocial>)

  /**
    The page: the loading view while fetching, the failure view without personal info,
    else the hero with the photo or the initials badge and the social row.
   */
  function Render(isLoading: bool, info: Js<PersonalInfo>): (v: Load<HomeView>)
    ensures v.Loading? <==> isLoading
    ensures v.Failed? <==> !isLoading && !info.Val?
    ensures v.Ready? ==> info.Val? && v.value.name == info.v.name && v.value.socials == Socials(info.v)
    ensures v.Ready? ==> v.value.role == info.v.role && v.value.bio == info.v.bio
    ensures v.Ready? ==> v.value.avatar == AvatarFor(info.v)
    ensures v.Ready? ==> (v.value.avatar.Photo? <==> Truthy(info.v.image_url))
    ensures v.Ready? && v.value.avatar.InitialsBadge? ==> v.value.avatar.text == WordStarts(info.v.name)
    ensures v.Ready? ==> MailSocial(info.v) in v.value.socials
  {
    match Resolve(isLoading, info)
    case Loading => Loading
    case Failed => Failed
    case Ready(p) => Ready(HomeView(AvatarFor(p), p.name, p.role, p.bio, Socials(p)))
  }
}

=== FILE: js.dfy ===
/**
  The few pieces of JavaScript value semantics the portfolio's view code relies on:
  values that may be `undefined` or `null`, truthiness of strings and arrays, the
  `a || b` default idiom and template-literal interpolation `${x}`.
 */
module Js {

  /** A value read from fetched content: missing (`undefined`), explicitly `null`, or present. */
  datatype Js<+T> = Undefined | Null | Val(v: T)

  /** JavaScript truthiness of a possibly missing string: present and not the empty string. */
  predicate Truthy(s: Js<string>) {
    s.Val? && s.v != ""
  }

  /** `s || d` where `s` is string-valued: every falsy value (missing or "") takes the default. */
  function OrString(s: Js<string>, d: string): (r: string)
    ensures Truthy(s) ==> r == s.v
    ensures !Truthy(s) ==> r == d
  {
    if Truthy(s) then s.v else d
  }

  /** `xs || d` where `xs` is array-valued: every array, even the empty one, is truthy. */
  function OrList<T>(xs: Js<seq<T>>, d: seq<T>): (r: seq<T>)
    ensures xs.Val? ==> r == xs.v
    ensures !xs.Val? ==> r == d
  {
    match xs
    case Val(v) => v
    case _ => d
  }

  /** `${s}` in a template literal: `undefined` and `null` print as their own names. */
  function Interpolate(s: Js<string>): (r: string)
    ensures s.Val? ==> r == s.v
    ensures s.Undefined? ==> r == "undefined"
    ensures s.Null? ==> r == "null"
  {
    match s
    case Undefined => "undefined"
    case Null => "null"
    case Val(x) => x
  }

  /** True when `p` is a prefix of `s` (`s.startsWith(p)`). */
  predicate StartsWith(s: string, p: string) {
    |p| <= |s| && s[..|p|] == p
  }
}

=== FILE: navigation.dfy ===
/**
  The navigation bar: the mobile menu's open flag, the "scrolled" flag driven by the
  window's scroll offset, the five fixed links and which of them is highlighted for
  the current path, on the desktop row and in the mobile panel alike.
 */
module Navigation {
  import opened Js
  import opened Seqs

  datatype Icon = HomeIcon | FolderOpen | Wrench | UserIcon | MessageCircle

  datatype NavItem = NavItem(name: string, path: string, icon: Icon)

  const NavItems: seq<NavItem> := [
    NavItem("Home", "/", HomeIcon),
    NavItem("Projects", "/projects", FolderOpen),
    NavItem("Skills", "/skills", Wrench),
    NavItem("About", "/about", UserIcon),
    NavItem("Contact", "/contact", MessageCircle)
  ]

  /** The offset, in CSS pixels, past which the header gets its glass background. */
  const ScrollThreshold: real := 50.0

  datatype NavState = NavState(isOpen: bool, scrolled: bool)

  /** Both flags start false. */
  const InitialNavState: NavState := NavState(false, false)

  /** What can change the state: a scroll event carrying `window.scrollY`, the menu button, a mobile link. */
  datatype NavEvent = Scroll(scrollY: real) | ToggleTap | MobileLinkTap

  /** One event handler run. */
  function Step(st: NavState, e: NavEvent): (r: NavState)
    ensures e.Scroll? ==> r.isOpen == st.isOpen && (r.scrolled <==> e.scrollY > ScrollThreshold)
    ensures e.ToggleTap? ==> r.isOpen == !st.isOpen && r.scrolled == st.scrolled
    ensures e.MobileLinkTap? ==> !r.isOpen && r.scrolled == st.scrolled
  {
    match e
    case Scroll(y) => st.(scrolled := y > ScrollThreshold)
    case ToggleTap => st.(isOpen := !st.isOpen)
    case MobileLinkTap => st.(isOpen := false)
  }

  /**
    The state after handling `evs` in order. Scroll events alone never open or close the
    menu, and a history that ends with a mobile link tap leaves it closed.
   */
  function Run(st: NavState, evs: seq<NavEvent>): (r: NavState)
    ensures (forall i :: 0 <= i < |evs| ==> evs[i].Scroll?) ==> r.isOpen == st.isOpen
    ensures |evs| > 0 && evs[|evs| - 1] == MobileLinkTap ==> !r.isOpen
  {
    if |evs| == 0 then st else Step(Run(st, evs[..|evs| - 1]), evs[|evs| - 1])
  }

  /** Exactly 50 is not "scrolled"; anything beyond it is. */
  lemma ThresholdBoundary(st: NavState)
    ensures !Step(st, Scroll(50.0)).scrolled
    ensures Step(st, Scroll(50.5)).scrolled
  {
  }

  /** Toggling twice restores the menu, whatever its state. */
  lemma ToggleTwiceRestores(st: NavState)
    ensures Step(Step(st, ToggleTap), ToggleTap) == st
  {
  }

  /** The offset carried by the last scroll event of `evs`, or nothing before the first scroll. */
  function LastScroll(evs: seq<NavEvent>): Js<real> {
    if |evs| == 0 then Undefined
    else if evs[|evs| - 1].Scroll? then Val(evs[|evs| - 1].scrollY)
    else LastScroll(evs[..|evs| - 1])
  }

  /** `scrolled` depends only on the most recent scroll offset: menu taps never change it. */
  lemma {:induction false} ScrolledFollowsLastScroll(st: NavState, evs: seq<NavEvent>)
    ensures Run(st, evs).scrolled == match LastScroll(evs)
      case Val(y) => y > ScrollThreshold
      case _ => st.scrolled
  {
    if |evs| > 0 {
      ScrolledFollowsLastScroll(st, evs[..|evs| - 1]);
    }
  }

  function IsMenuEvent(): NavEvent -> bool {
    (e: NavEvent) => !e.Scroll?
  }

  /** The menu's state depends only on the taps: removing every scroll event leaves it the same. */
  lemma {:induction false} OpenIgnoresScrolling(st: NavState, evs: seq<NavEvent>)
    ensures Run(st, evs).isOpen == Run(st, Filter(evs, IsMenuEvent())).isOpen
  {
    if |evs| > 0 {
      var front := evs[..|evs| - 1];
      var last := evs[|evs| - 1];
      OpenIgnoresScrolling(st, front);
      assert evs == front + [last];
      FilterAppend(front, [last], IsMenuEvent());
      var ff := Filter(front, IsMenuEvent());
      if !last.Scroll? {
        var fe := ff + [last];
        assert fe[..|fe| - 1] == ff;
      } else {
        assert Filter([last], IsMenuEvent()) == [];
        assert Filter(evs, IsMenuEvent()) == ff;
      }
    }
  }

  /** Tapping a mobile link closes the menu from any state, after any history. */
  lemma LinkTapAlwaysCloses(st: NavState, evs: seq<NavEvent>)
    ensures !Run(st, evs + [MobileLinkTap]).isOpen
  {
    var all := evs + [MobileLinkTap];
    assert all[..|all| - 1] == evs;
  }

  // ---------------------------------------------------------------------------
  // Active link

  /** `location.pathname === item.path`: exact equality, no prefix matching. */
  predicate IsActive(pathname: string, item: NavItem) {
    pathname == item.path
  }

  function ActiveFor(pathname: string): NavItem -> bool {
    (item: NavItem) => IsActive(pathname, item)
  }

  function Paths(items: seq<NavItem>): (r: seq<string>)
    ensures |r| == |items| && forall i :: 0 <= i < |items| ==> r[i] == items[i].path
  {
    seq(|items|, i requires 0 <= i < |items| => items[i].path)
  }

  predicate HasPath(items: seq<NavItem>, pathname: string) {
    exists i :: 0 <= i < |items| && items[i].path == pathname
  }

  /** With distinct paths, a listed path activates exactly one item and any other path none. */
  lemma {:induction false} ActiveCountDistinct(items: seq<NavItem>, pathname: string)
    requires Distinct(Paths(items))
    ensures |Filter(items, ActiveFor(pathname))| == if HasPath(items, pathname) then 1 else 0
  {
    if |items| > 0 {
      var rest := items[1..];
      assert Distinct(Paths(rest)) by {
        forall i, j | 0 <= i < j < |rest| ensures Paths(rest)[i] != Paths(rest)[j] {
          assert Paths(rest)[i] == Paths(items)[i + 1] && Paths(rest)[j] == Paths(items)[j + 1];
        }
      }
      ActiveCountDistinct(rest, pathname);
      assert HasPath(items, pathname) <==> items[0].path == pathname || HasPath(rest, pathname) by {
        if HasPath(items, pathname) && items[0].path != pathname {
          var i :| 0 <= i < |items| && items[i].path == pathname;
          assert rest[i - 1].path == pathname;
        }
        if HasPath(rest, pathname) {
          var i :| 0 <= i < |rest| && rest[i].path == pathname;
          assert items[i + 1].path == pathname;
        }
      }
      if items[0].path == pathname {
        assert !HasPath(rest, pathname);
      }
    }
  }

  /** The five links: on "/", "/projects", "/skills", "/about" or "/contact" exactly one is active, elsewhere none. */
  lemma ExactlyOneActive(pathname: string)
    ensures |Filter(NavItems, ActiveFor(pathname))| ==
      if pathname in ["/", "/projects", "/skills", "/about", "/contact"] then 1 else 0
  {
    NavPathsDistinct();
    ActiveCountDistinct(NavItems, pathname);
    NavPaths(pathname);
  }

  lemma NavPathsDistinct()
    ensures Distinct(Paths(NavItems))
  {
  }

  /** The listed paths are exactly the five items' paths. */
  lemma NavPaths(pathname: string)
    ensures HasPath(NavItems, pathname) <==> pathname in ["/", "/projects", "/skills", "/about", "/contact"]
  {
    var paths := ["/", "/projects", "/skills", "/about", "/contact"];
    assert forall i :: 0 <= i < |NavItems| ==> NavItems[i].path == paths[i];
    if pathname in paths {
      var i :| 0 <= i < |paths| && paths[i] == pathname;
      assert NavItems[i].path == pathname;
    }
  }

  // ---------------------------------------------------------------------------
  // Rendering

  /** One rendered link: highlighted or not, and whether tapping it also closes the menu. */
  datatype LinkView = LinkView(item: NavItem, active: bool, closesMenu: bool)

  datatype MenuIcon = MenuBars | CloseX

  datatype NavView = NavView(
    glassHeader: bool,
    desktop: seq<LinkView>,
    toggleIcon: MenuIcon,
    mobileExpanded: bool,
    mobile: seq<LinkView>)

  function Links(pathname: string, closesMenu: bool): seq<LinkView> {
    seq(|NavItems|, i requires 0 <= i < |NavItems| => LinkView(NavItems[i], IsActive(pathname, NavItems[i]), closesMenu))
  }

  /** The header for a state and a path: both link lists are built from the same items with the same predicate. */
  function Render(st: NavState, pathname: string): (v: NavView)
    ensures v.glassHeader == st.scrolled && v.mobileExpanded == st.isOpen
    ensures v.toggleIcon == (if st.isOpen then CloseX else MenuBars)
    ensures |v.desktop| == |v.mobile| == |NavItems|
    ensures forall i :: 0 <= i < |NavItems| ==>
      v.desktop[i].item == v.mobile[i].item == NavItems[i] && v.desktop[i].active == v.mobile[i].active
    ensures forall i :: 0 <= i < |NavItems| ==> (v.desktop[i].active <==> pathname == NavItems[i].path)
    ensures forall i :: 0 <= i < |NavItems| ==> v.mobile[i].closesMenu && !v.desktop[i].closesMenu
  {
    NavView(st.scrolled, Links(pathname, false), if st.isOpen then CloseX else MenuBars, st.isOpen, Links(pathname, true))
  }
}

=== FILE: profile.dfy ===
/**
  The personal-info record that Home, About, Contact and the Footer render, the
  loading/failed/ready choice every fetching page makes, and the avatar shown when
  there is no photo: the initials of the name, computed as
  `name.split(' ').map(n => n[0]).join('')`.
 */
module Profile {
  import opened Js

  /** One row of personal information as the content service returns it. */
  datatype PersonalInfo = PersonalInfo(
    name: string,
    role: string,
    bio: string,
    email: Js<string>,
    phone: Js<string>,
    location: Js<string>,
    github_url: Js<string>,
    linkedin_url: Js<string>,
    image_url: Js<string>,
    resume_url: Js<string>,
    quote: Js<string>)

  /** The three sites the social links of the hero and the footer point to. */
  datatype Site = GitHub | LinkedIn | Email

  /** What a page renders for fetched content: a loading view, a failure message, or the content. */
  datatype Load<+T> = Loading | Failed | Ready(value: T)

  /**
    The guard every fetching page starts with: `if (isLoading)` shows the loading view,
    then `if (!data)` shows the failure message, otherwise the content is rendered.
   */
  function Resolve<T>(isLoading: bool, data: Js<T>): (r: Load<T>)
    ensures r.Loading? <==> isLoading
    ensures r.Failed? <==> !isLoading && !data.Val?
    ensures r.Ready? ==> data == Val(r.value)
  {
    if isLoading then Loading
    else match data
      case Val(d) => Ready(d)
      case _ => Failed
  }

  // ---------------------------------------------------------------------------
  // `split(' ')`, `join(' ')` and the initials

  /**
    `s.split(' ')`: the maximal space-free pieces between single spaces. Consecutive,
    leading or trailing spaces give empty pieces, and "" splits into [""]. Defined one
    character at a time from the end: a space starts a new (empty) piece, any other
    character extends the last piece.
   */
  function Split(s: string): (parts: seq<string>)
    ensures |parts| > 0
    ensures forall i :: 0 <= i < |parts| ==> ' ' !in parts[i]
  {
    if |s| == 0 then [""]
    else
      var p := Split(s[..|s| - 1]);
      var c := s[|s| - 1];
      if c == ' ' then p + [""]
      else p[..|p| - 1] + [p[|p| - 1] + [c]]
  }

  /** `parts.join(' ')`. */
  function Join(parts: seq<string>): string
    requires |parts| > 0
  {
    if |parts| == 1 then parts[0]
    else Join(parts[..|parts| - 1]) + [' '] + parts[|parts| - 1]
  }

  /** Appending one character to the split string: a space opens a new piece, anything else extends the last one. */
  lemma SplitSnoc(s: string, c: char)
    ensures Split(s + [c]) == if c == ' ' then Split(s) + [""]
      else Split(s)[..|Split(s)| - 1] + [Split(s)[|Split(s)| - 1] + [c]]
  {
    assert (s + [c])[..|s|] == s;
  }

  /** Splitting on spaces and joining with spaces gives back the original string. */
  lemma {:induction false} SplitJoin(s: string)
    ensures Join(Split(s)) == s
  {
    if |s| > 0 {
      var init := s[..|s| - 1];
      var c := s[|s| - 1];
      assert s == init + [c];
      SplitJoin(init);
      SplitSnoc(init, c);
      var p := Split(init);
      if c == ' ' {
        var q := p + [""];
        assert q[..|q| - 1] == p;
      } else {
        var q := p[..|p| - 1] + [p[|p| - 1] + [c]];
        assert q[..|q| - 1] == p[..|p| - 1];
        if |p| > 1 {
          assert Join(p) == Join(p[..|p| - 1]) + [' '] + p[|p| - 1];
        }
      }
    }
  }

  /** `n[0]` inside `join('')`: the first character, and "" for an empty piece (`undefined` joins as ""). */
  function Head(part: string): string {
    if |part| == 0 then "" else [part[0]]
  }

  /** `parts.map(n => n[0]).join('')`: at most one character per part, each the first of its part. */
  function Heads(parts: seq<string>): (r: string)
    ensures |r| <= |parts|
    ensures (forall k :: 0 <= k < |parts| ==> ' ' !in parts[k]) ==> ' ' !in r
  {
    if |parts| == 0 then "" else Heads(parts[..|parts| - 1]) + Head(parts[|parts| - 1])
  }

  /**
    The avatar text: the first character of each space-separated part of the name, in
    order. There is at most one per part, and none is a space.
   */
  function Initials(name: string): (r: string)
    ensures |r| <= |Split(name)|
    ensures ' ' !in r
  {
    Heads(Split(name))
  }

  /** Position `i` of `s` begins a word: it is not a space and is first or follows a space. */
  predicate WordStart(s: string, i: int)
    requires 0 <= i < |s|
  {
    s[i] != ' ' && (i == 0 || s[i - 1] == ' ')
  }

  /** Reference reading of the initials: the characters at word starts, left to right. */
  function WordStarts(s: string): string {
    if |s| == 0 then ""
    else WordStarts(s[..|s| - 1]) + (if WordStart(s, |s| - 1) then [s[|s| - 1]] else "")
  }

  /** The last piece of `Split(s)` is empty exactly when `s` is empty or ends in a space. */
  lemma {:induction false} LastPieceEmpty(s: string)
    ensures var p := Split(s); p[|p| - 1] == "" <==> |s| == 0 || s[|s| - 1] == ' '
  {
  }

  /** A non-empty sequence is its front followed by its last element. */
  lemma LastSplit<T>(p: seq<T>)
    requires |p| > 0
    ensures p == p[..|p| - 1] + [p[|p| - 1]]
  {
  }

  /** Heads distributes over appending one piece. */
  lemma HeadsSnoc(parts: seq<string>, last: string)
    ensures Heads(parts + [last]) == Heads(parts) + Head(last)
  {
    assert (parts + [last])[..|parts|] == parts;
  }

  /** Appending one character adds it to the word starts exactly when it begins a word. */
  lemma WordStartsSnoc(s: string, c: char)
    ensures WordStarts(s + [c]) == WordStarts(s) + if c != ' ' && (|s| == 0 || s[|s| - 1] == ' ') then [c] else ""
  {
    var t := s + [c];
    assert t[..|t| - 1] == s;
    assert WordStart(t, |t| - 1) <==> c != ' ' && (|s| == 0 || s[|s| - 1] == ' ');
  }

  /** Extending the last piece by a non-space adds an initial exactly when that piece was empty. */
  lemma HeadsExtend(front: seq<string>, last: string, c: char)
    ensures Heads(front + [last + [c]]) == Heads(front + [last]) + if last == "" then [c] else ""
  {
    HeadsSnoc(front, last);
    HeadsSnoc(front, last + [c]);
    if last == "" {
      assert Head(last + [c]) == [c];
    } else {
      assert Head(last + [c]) == Head(last);
    }
  }

  /** One step of the induction below: appending a character keeps initials and word starts equal. */
  lemma InitialsStep(init: string, c: char)
    requires Initials(init) == WordStarts(init)
    ensures Initials(init + [c]) == WordStarts(init + [c])
  {
    SplitSnoc(init, c);
    WordStartsSnoc(init, c);
    var p := Split(init);
    if c == ' ' {
      HeadsSnoc(p, "");
    } else {
      var front := p[..|p| - 1];
      var last := p[|p| - 1];
      LastSplit(p);
      HeadsExtend(front, last, c);
      LastPieceEmpty(init);
    }
  }

  /**
    The initials are exactly the characters that begin a word: so a name of n words
    separated by single spaces has n initials, and extra spaces add none.
   */
  lemma {:induction false} InitialsAreWordStarts(name: string)
    ensures Initials(name) == WordStarts(name)
  {
    if |name| > 0 {
      var init := name[..|name| - 1];
      InitialsAreWordStarts(init);
      InitialsStep(init, name[|name| - 1]);
      LastSplit(name);
    }
  }

  // ---------------------------------------------------------------------------
  // Avatar

  /** The hero picture: the photo when `image_url` is set, else a badge with the initials. */
  datatype Avatar = Photo(url: string) | InitialsBadge(text: string)

  function AvatarFor(info: PersonalInfo): (a: Avatar)
    ensures Truthy(info.image_url) <==> a.Photo?
    ensures a.Photo? ==> a.url == info.image_url.v
    ensures a.InitialsBadge? ==> a.text == WordStarts(info.name)
  {
    InitialsAreWordStarts(info.name);
    if Truthy(info.image_url) then Photo(info.image_url.v) else InitialsBadge(Initials(info.name))
  }
}

=== FILE: projects.dfy ===
/**
  The Projects page: the tab filter, the normalisation of a fetched project row into
  the record the project modal shows, the modal's open/close state, the technology
  chips on each card and the empty-state message.
 */
module Projects {
  import opened Js
  import opened Seqs
  import opened Decimal

  /** A JSON value that may appear as a value inside the `stats` object. */
  datatype StatValue = JString(s: string) | JNumber(n: SafeInteger) | JBoolean(b: bool) | JNull | JObject

  /** The values `typeof` does not call "object": a string, a number or a boolean. */
  type ScalarValue = v: StatValue | v.JString? || v.JNumber? || v.JBoolean? witness JBoolean(false)

  /**
    The `stats` column once present: an object (its entries in enumeration order) or a
    primitive. A `null` column is `Null` of the surrounding `Js`, so it has one encoding only.
   */
  datatype Stats = Entries(entries: seq<(string, StatValue)>) | Primitive(value: ScalarValue)

  /** One project row as the content service returns it. */
  datatype RawProject = RawProject(
    id: string,
    name: string,
    description: string,
    short_description: Js<string>,
    start_date: Js<string>,
    end_date: Js<string>,
    technologies: Js<seq<string>>,
    category: string,
    image_url: Js<string>,
    live_demo_url: Js<string>,
    source_code_url: Js<string>,
    features: Js<seq<string>>,
    stats: Js<Stats>)

  /** A `{ label, value }` pair shown in the modal (`label` is reserved in Dafny, hence `key`). */
  datatype Stat = Stat(key: string, value: string)

  /** The record handed to the project modal. */
  datatype ModalProject = ModalProject(
    id: string,
    name: string,
    description: string,
    shortDescription: string,
    startDate: string,
    endDate: string,
    technologies: seq<string>,
    category: string,
    image: string,
    liveUrl: Js<string>,
    sourceUrl: Js<string>,
    features: seq<string>,
    stats: seq<Stat>)

  const AllProjects: string := "All Projects"

  const ProjectTabs: seq<string> := [AllProjects, "Mobile App", "Website", "Enterprise"]

  /**
    The tab row: four distinct names, the first showing every project and each other
    one showing exactly the projects of its own category.
   */
  lemma ProjectTabsFilter(projects: seq<RawProject>, i: int)
    requires 0 <= i < |ProjectTabs|
    ensures Distinct(ProjectTabs)
    ensures i == 0 ==> FilterProjects(Val(projects), ProjectTabs[i]) == projects
    ensures i > 0 ==> FilterProjects(Val(projects), ProjectTabs[i]) == Filter(projects, InProjectCategory(ProjectTabs[i]))
  {
  }

  const DefaultStats: seq<Stat> := [
    Stat("Duration", "3 months"),
    Stat("Team Size", "1"),
    Stat("Status", "Completed")
  ]

  // ---------------------------------------------------------------------------
  // Filtering

  function InProjectCategory(c: string): RawProject -> bool {
    (p: RawProject) => p.category == c
  }

  /**
    `projectsData?.filter(project => activeTab === "All Projects" || project.category === activeTab) || []`.
   */
  function FilterProjects(data: Js<seq<RawProject>>, tab: string): (r: seq<RawProject>)
    ensures !data.Val? ==> r == []
    ensures data.Val? && tab == AllProjects ==> r == data.v
    ensures data.Val? && tab != AllProjects ==> r == Filter(data.v, InProjectCategory(tab))
    ensures forall p :: p in r <==> data.Val? && p in data.v && (tab == AllProjects || p.category == tab)
  {
    match data
    case Val(projects) =>
      var keep := (p: RawProject) => tab == AllProjects || p.category == tab;
      forall p ensures p in Filter(projects, keep) <==> p in projects && keep(p) {
        FilterMember(projects, keep, p);
      }
      if tab == AllProjects then
        FilterKeepsAll(projects, keep);
        Filter(projects, keep)
      else
        FilterCongruent(projects, keep, InProjectCategory(tab));
        Filter(projects, keep)
    case _ => []
  }

  // ---------------------------------------------------------------------------
  // Normalisation

  /** `String(value)` for the values a stats object can hold. */
  function StatText(v: StatValue): (s: string)
    ensures v.JString? ==> s == v.s
    ensures v.JNumber? ==> s == IntToString(v.n) && ParseInt(s) == v.n
    ensures v.JBoolean? ==> s == (if v.b then "true" else "false")
    ensures v.JNull? ==> s == "null"
    ensures v.JObject? ==> s == "[object Object]"
  {
    match v
    case JString(s) => s
    case JNumber(n) => IntRoundTrip(n); IntToString(n)
    case JBoolean(b) => if b then "true" else "false"
    case JNull => "null"
    case JObject => "[object Object]"
  }

  /** `Object.entries(stats).map(([key, value]) => ({ label: key, value: String(value) }))`. */
  function EntriesToStats(entries: seq<(string, StatValue)>): (r: seq<Stat>)
    ensures |r| == |entries|
    ensures forall i :: 0 <= i < |r| ==> r[i].key == entries[i].0 && r[i].value == StatText(entries[i].1)
  {
    seq(|entries|, i requires 0 <= i < |entries| => Stat(entries[i].0, StatText(entries[i].1)))
  }

  /** What a JavaScript `throw` out of the click handler carries. */
  datatype Thrown = TypeError(message: string)

  datatype Outcome<+T> = Returned(value: T) | Threw(error: Thrown)

  /**
    The stats conversion as written: `typeof project.stats === 'object'` also holds for
    `null`, and `Object.entries(null)` throws a TypeError.
   */
  function StatsAsWritten(stats: Js<Stats>): (r: Outcome<seq<Stat>>)
    ensures r.Threw? <==> stats.Null?
    ensures stats.Val? && stats.v.Entries? ==> r == Returned(EntriesToStats(stats.v.entries))
    ensures stats.Undefined? || (stats.Val? && stats.v.Primitive?) ==> r == Returned(DefaultStats)
  {
    match stats
    case Null => Threw(TypeError("Cannot convert undefined or null to object"))
    case Val(Entries(es)) => Returned(EntriesToStats(es))
    case _ => Returned(DefaultStats)
  }

  /** The stats conversion as intended: an object gives one pair per key, anything else (null included) the defaults. */
  function NormalizeStats(stats: Js<Stats>): (r: seq<Stat>)
    ensures stats.Val? && stats.v.Entries? ==> |r| == |stats.v.entries| && forall i :: 0 <= i < |r| ==>
      r[i].key == stats.v.entries[i].0 && r[i].value == StatText(stats.v.entries[i].1)
    ensures !(stats.Val? && stats.v.Entries?) ==> r == DefaultStats
  {
    match stats
    case Val(Entries(es)) => EntriesToStats(es)
    case _ => DefaultStats
  }

  /** The fields of `transformedProject` that do not depend on `stats`, given the converted stats. */
  function Transform(p: RawProject, stats: seq<Stat>): ModalProject {
    ModalProject(
      p.id,
      p.name,
      p.description,
      OrString(p.short_description, p.description),
      OrString(p.start_date, "Unknown"),
      OrString(p.end_date, "Present"),
      OrList(p.technologies, []),
      p.category,
      OrString(p.image_url, "/placeholder.svg"),
      p.live_demo_url,
      p.source_code_url,
      OrList(p.features, []),
      stats)
  }

  /** `handleProjectClick`'s transformation as written: it throws when `stats` is `null`. */
  function NormalizeAsWritten(p: RawProject): (r: Outcome<ModalProject>)
    ensures r.Threw? <==> p.stats.Null?
  {
    match StatsAsWritten(p.stats)
    case Threw(e) => Threw(e)
    case Returned(stats) => Returned(Transform(p, stats))
  }

  /**
    A raw project row turned into the modal record: identity fields copied, every
    missing or empty optional field replaced by its default, the two links copied as is.
   */
  function Normalize(p: RawProject): (m: ModalProject)
    ensures m.id == p.id && m.name == p.name && m.description == p.description && m.category == p.category
    ensures m.shortDescription == (if Truthy(p.short_description) then p.short_description.v else p.description)
    ensures m.startDate == (if Truthy(p.start_date) then p.start_date.v else "Unknown")
    ensures m.endDate == (if Truthy(p.end_date) then p.end_date.v else "Present")
    ensures m.technologies == (if p.technologies.Val? then p.technologies.v else [])
    ensures m.image == (if Truthy(p.image_url) then p.image_url.v else "/placeholder.svg")
    ensures m.features == (if p.features.Val? then p.features.v else [])
    ensures m.liveUrl == p.live_demo_url && m.sourceUrl == p.source_code_url
    ensures m.stats == NormalizeStats(p.stats)
    ensures m.startDate != "" && m.endDate != "" && m.image != ""
  {
    Transform(p, NormalizeStats(p.stats))
  }

  /** The corrected normalisation differs from the written one only where the written one throws. */
  lemma NormalizeAgreesUnlessNull(p: RawProject)
    ensures !p.stats.Null? ==> NormalizeAsWritten(p) == Returned(Normalize(p))
    ensures p.stats.Null? ==> Normalize(p).stats == DefaultStats
  {
  }

  /** A modal record whose displayed text fields are all non-empty, as normalisation produces them. */
  predicate Complete(m: ModalProject) {
    m.shortDescription != "" && m.startDate != "" && m.endDate != "" && m.image != ""
  }

  /** The raw row that carries every field of `m` explicitly, with its stats as a string-valued object. */
  function Embed(m: ModalProject): RawProject {
    RawProject(
      m.id, m.name, m.description,
      Val(m.shortDescription), Val(m.startDate), Val(m.endDate),
      Val(m.technologies), m.category, Val(m.image),
      m.liveUrl, m.sourceUrl, Val(m.features),
      Val(Entries(seq(|m.stats|, i requires 0 <= i < |m.stats| => (m.stats[i].key, JString(m.stats[i].value))))))
  }

  /** Normalisation loses nothing of a complete record: embedding it as a raw row and normalising gives it back. */
  lemma NormalizeEmbedRoundTrip(m: ModalProject)
    requires Complete(m)
    ensures Normalize(Embed(m)) == m
  {
    var r := Normalize(Embed(m));
    assert r.stats == m.stats;
  }

  // ---------------------------------------------------------------------------
  // Page state: active tab and modal

  datatype ProjectsState = ProjectsState(activeTab: string, selected: Js<ModalProject>, modalOpen: bool)

  /** `useState(null)`, `useState(false)` and `useState("All Projects")`. */
  const InitialProjectsState: ProjectsState := ProjectsState(AllProjects, Null, false)

  /** A click on a tab button: the tab changes, and the modal and its selection stay as they were. */
  function SelectTab(st: ProjectsState, tab: string): (r: ProjectsState)
    ensures r.activeTab == tab
    ensures r.selected == st.selected && r.modalOpen == st.modalOpen
  {
    st.(activeTab := tab)
  }

  /** A click on a project card: the modal opens on the card's normalised record. */
  function Click(st: ProjectsState, p: RawProject): (r: ProjectsState)
    ensures r.modalOpen && r.selected == Val(Normalize(p))
    ensures r.activeTab == st.activeTab
  {
    st.(selected := Val(Normalize(p)), modalOpen := true)
  }

  /** The click handler as written: when normalisation throws, neither state update runs. */
  function ClickAsWritten(st: ProjectsState, p: RawProject): (r: ProjectsState)
    ensures p.stats.Null? ==> r == st
    ensures !p.stats.Null? ==> r == Click(st, p)
  {
    match NormalizeAsWritten(p)
    case Threw(_) => st
    case Returned(m) => st.(selected := Val(m), modalOpen := true)
  }

  /** The modal's `onClose`: only the open flag changes; the selection is kept. */
  function Close(st: ProjectsState): (r: ProjectsState)
    ensures !r.modalOpen
    ensures r.selected == st.selected && r.activeTab == st.activeTab
  {
    st.(modalOpen := false)
  }

  /** Opening then closing leaves the modal closed on the clicked project; a second close changes nothing. */
  lemma ClickThenClose(st: ProjectsState, p: RawProject)
    ensures var r := Close(Click(st, p)); !r.modalOpen && r.selected == Val(Normalize(p)) && r.activeTab == st.activeTab
    ensures Close(Close(st)) == Close(st)
  {
  }

  /** The finding: a card whose project has `stats: null` cannot open the modal from the initial state. */
  lemma NullStatsNeverOpensModal(p: RawProject)
    requires p.stats.Null?
    ensures !ClickAsWritten(InitialProjectsState, p).modalOpen
    ensures Click(InitialProjectsState, p).modalOpen
  {
  }

  // ---------------------------------------------------------------------------
  // Card chips and empty state

  datatype Badge = NoBadge | More(hidden: nat)

  datatype Chips = Chips(shown: seq<string>, badge: Badge)

  function HiddenCount(b: Badge): nat {
    match b
    case NoBadge => 0
    case More(n) => n
  }

  /**
    `(project.technologies || []).slice(0, 3)` as chips, then a "+N more" badge with
    `N = length - 3` when the list is longer than three: exactly three chips then, and
    the whole list otherwise.
   */
  function TechChips(techs: Js<seq<string>>): (c: Chips)
    ensures var t := OrList(techs, []);
      && |c.shown| == (if |t| <= 3 then |t| else 3)
      && c.shown == t[..|c.shown|]
      && |c.shown| + HiddenCount(c.badge) == |t|
      && (c.badge.More? <==> |t| > 3)
      && (c.badge.More? ==> c.badge.hidden > 0)
  {
    var t := OrList(techs, []);
    var shown := if |t| <= 3 then t else t[..3];
    Chips(shown, if |t| > 3 then More(|t| - 3) else NoBadge)
  }

  /** The chips and the badge together account for the whole list: the chips followed by the hidden rest give it back. */
  lemma ChipsReassemble(techs: seq<string>)
    ensures var c := TechChips(Val(techs)); c.shown + techs[|c.shown|..] == techs
    ensures var c := TechChips(Val(techs)); |techs[|c.shown|..]| == HiddenCount(c.badge)
  {
    var c := TechChips(Val(techs));
    assert techs == techs[..|c.shown|] + techs[|c.shown|..];
  }

  datatype ProjectsView = ProjectsLoading | Grid(cards: seq<RawProject>, noneFound: bool)

  /** The grid of filtered cards, with the "No projects found" message exactly when it is empty. */
  function Render(isLoading: bool, data: Js<seq<RawProject>>, st: ProjectsState): (v: ProjectsView)
    ensures v.ProjectsLoading? <==> isLoading
    ensures v.Grid? ==> v.cards == FilterProjects(data, st.activeTab) && (v.noneFound <==> |v.cards| == 0)
  {
    if isLoading then ProjectsLoading
    else
      var filtered := FilterProjects(data, st.activeTab);
      Grid(filtered, |filtered| == 0)
  }

  /**
    With data present, a category tab shows "No projects found" exactly when no
    project has that category; missing data always shows it.
   */
  lemma NoneFoundIff(data: Js<seq<RawProject>>, st: ProjectsState)
    ensures var v := Render(false, data, st);
      v.noneFound <==> !data.Val? || forall p :: p in data.v ==> !(st.activeTab == AllProjects || p.category == st.activeTab)
  {
    var v := Render(false, data, st);
    if data.Val? && !v.noneFound {
      assert v.cards[0] in v.cards;
    }
  }
}

=== FILE: seqs.dfy ===
/**
  `Array.prototype.filter` and flattening, as pure functions over sequences, with the
  facts the view code needs: filtering keeps exactly the wanted elements, keeps their
  relative order (it distributes over concatenation) and keeps their multiplicities.
 */
module Seqs {

  /** The elements of `s` for which `keep` holds, in their original order. */
  function Filter<T>(s: seq<T>, keep: T -> bool): (r: seq<T>)
    ensures |r| <= |s|
    ensures forall i :: 0 <= i < |r| ==> keep(r[i])
    ensures forall x :: x in r ==> x in s
  {
    if |s| == 0 then []
    else (if keep(s[0]) then [s[0]] else []) + Filter(s[1..], keep)
  }

  /** Filtering a concatenation filters each part and concatenates: the order of survivors is kept. */
  lemma {:induction false} FilterAppend<T>(a: seq<T>, b: seq<T>, keep: T -> bool)
    ensures Filter(a + b, keep) == Filter(a, keep) + Filter(b, keep)
  {
    if |a| == 0 {
      assert a + b == b;
    } else {
      assert (a + b)[1..] == a[1..] + b;
      FilterAppend(a[1..], b, keep);
    }
  }

  /** An element survives filtering exactly when it occurs in the input and is wanted. */
  lemma {:induction false} FilterMember<T>(s: seq<T>, keep: T -> bool, x: T)
    ensures x in Filter(s, keep) <==> x in s && keep(x)
  {
    if |s| > 0 {
      FilterMember(s[1..], keep, x);
      assert x in s <==> x == s[0] || x in s[1..];
    }
  }

  /** Each wanted element keeps its number of occurrences; every other element occurs zero times. */
  lemma {:induction false} FilterCount<T>(s: seq<T>, keep: T -> bool, x: T)
    ensures multiset(Filter(s, keep))[x] == if keep(x) then multiset(s)[x] else 0
  {
    if |s| > 0 {
      FilterCount(s[1..], keep, x);
      assert s == [s[0]] + s[1..];
      assert multiset(s) == multiset([s[0]]) + multiset(s[1..]);
    }
  }

  /** When every element is wanted, filtering is the identity. */
  lemma {:induction false} FilterKeepsAll<T>(s: seq<T>, keep: T -> bool)
    requires forall i :: 0 <= i < |s| ==> keep(s[i])
    ensures Filter(s, keep) == s
  {
    if |s| > 0 {
      FilterKeepsAll(s[1..], keep);
      assert s == [s[0]] + s[1..];
    }
  }

  /** A predicate that holds nowhere keeps nothing. */
  lemma {:induction false} FilterKeepsNone<T>(s: seq<T>, keep: T -> bool)
    requires forall i :: 0 <= i < |s| ==> !keep(s[i])
    ensures Filter(s, keep) == []
  {
    if |s| > 0 {
      FilterKeepsNone(s[1..], keep);
    }
  }

  /** Two filters that agree on every element of `s` give the same result. */
  lemma {:induction false} FilterCongruent<T>(s: seq<T>, p: T -> bool, q: T -> bool)
    requires forall i :: 0 <= i < |s| ==> p(s[i]) == q(s[i])
    ensures Filter(s, p) == Filter(s, q)
  {
    if |s| > 0 {
      FilterCongruent(s[1..], p, q);
    }
  }

  /**
    Filtering by a predicate that is the disjoint union of two others gives, as a
    multiset, the union of the two filtered multisets.
   */
  lemma {:induction false} FilterDisjointUnion<T>(s: seq<T>, p: T -> bool, q: T -> bool, pq: T -> bool)
    requires forall i :: 0 <= i < |s| ==> pq(s[i]) == (p(s[i]) || q(s[i]))
    requires forall i :: 0 <= i < |s| ==> !(p(s[i]) && q(s[i]))
    ensures multiset(Filter(s, pq)) == multiset(Filter(s, p)) + multiset(Filter(s, q))
  {
    if |s| > 0 {
      FilterDisjointUnion(s[1..], p, q, pq);
    }
  }

  /** Concatenation of a sequence of sequences, in order. */
  function Flatten<T>(xss: seq<seq<T>>): (r: seq<T>)
  {
    if |xss| == 0 then [] else Flatten(xss[..|xss| - 1]) + xss[|xss| - 1]
  }

  /** No element occurs twice. */
  predicate Distinct<T(==)>(xs: seq<T>) {
    forall i, j :: 0 <= i < j < |xs| ==> xs[i] != xs[j]
  }

  /** `cond && <element>` in JSX: the element as a one-element list, or nothing. */
  function When<T>(cond: bool, x: T): seq<T> {
    if cond then [x] else []
  }

  /**
    Three conditional elements written one after another, ranked in that order, render
    at most three elements, each at most once, in rank order.
   */
  lemma WhenOrdered<T>(c1: bool, x1: T, c2: bool, x2: T, c3: bool, x3: T, rank: T -> int)
    requires rank(x1) < rank(x2) < rank(x3)
    ensures var r := When(c1, x1) + When(c2, x2) + When(c3, x3);
      |r| <= 3 && forall i, j :: 0 <= i < j < |r| ==> rank(r[i]) < rank(r[j])
  {
    var a, b, e := When(c1, x1), When(c2, x2), When(c3, x3);
    var r := a + b + e;
    forall i | 0 <= i < |r|
      ensures rank(r[i]) == if i < |a| then rank(x1) else if i < |a| + |b| then rank(x2) else rank(x3)
    {
      if i < |a| {
        assert r[i] == a[i];
      } else if i < |a| + |b| {
        assert r[i] == b[i - |a|];
      } else {
        assert r[i] == e[i - |a| - |b|];
      }
    }
  }
}

=== FILE: skills.dfy ===
/**
  The Skills page: the skills list filtered by the active tab, the grouping of the
  filtered list into the fixed, ordered categories, the choice between the grouped
  and the flat view, and the guard on the certifications section.
 */
module Skills {
  import opened Js
  import opened Seqs

  datatype Skill = Skill(id: string, name: string, category: string, proficiency: int)

  datatype Certification = Certification(id: string, name: string, organization: string, link: Js<string>)

  const AllSkills: string := "All Skills"

  /** The tab row, in display order; the first entry shows every skill. */
  const SkillCategories: seq<string> := [
    AllSkills,
    "Programming Languages",
    "Frontend Development",
    "Backend Development",
    "Development Tools",
    "Database",
    "Cloud & Deployment",
    "Data Analysis",
    "Design & Other"
  ]

  /** The eight categories skills are grouped under. */
  const Listed: seq<string> := SkillCategories[1..]

  function InCategory(c: string): Skill -> bool {
    (s: Skill) => s.category == c
  }

  /** `skills.filter(skill => skill.category === c)`. */
  function OfCategory(skills: seq<Skill>, c: string): seq<Skill> {
    Filter(skills, InCategory(c))
  }

  /**
    `skillsData?.filter(skill => activeTab === "All Skills" || skill.category === activeTab) || []`:
    the whole list under "All Skills", otherwise the skills of the active category,
    and nothing while the data is missing.
   */
  function FilterSkills(data: Js<seq<Skill>>, tab: string): (r: seq<Skill>)
    ensures !data.Val? ==> r == []
    ensures data.Val? && tab == AllSkills ==> r == data.v
    ensures data.Val? && tab != AllSkills ==> r == OfCategory(data.v, tab)
    ensures forall x :: x in r <==> data.Val? && x in data.v && (tab == AllSkills || x.category == tab)
  {
    match data
    case Val(skills) =>
      var keep := (s: Skill) => tab == AllSkills || s.category == tab;
      forall x ensures x in Filter(skills, keep) <==> x in skills && keep(x) {
        FilterMember(skills, keep, x);
      }
      if tab == AllSkills then
        FilterKeepsAll(skills, keep);
        Filter(skills, keep)
      else
        FilterCongruent(skills, keep, InCategory(tab));
        Filter(skills, keep)
    case _ => []
  }

  // ---------------------------------------------------------------------------
  // Grouping

  /** One heading of the "All Skills" view with its skills. */
  datatype Group = Group(category: string, skills: seq<Skill>)

  /** The group `forEach` adds for category `c`: none for "All Skills" or when no skill has category `c`. */
  function GroupFor(filtered: seq<Skill>, c: string): seq<Group> {
    if c == AllSkills || |OfCategory(filtered, c)| == 0 then [] else [Group(c, OfCategory(filtered, c))]
  }

  /** The groups built by visiting `cats` in order (the functional reading of the `forEach`). */
  function GroupBy(filtered: seq<Skill>, cats: seq<string>): seq<Group> {
    if |cats| == 0 then [] else GroupBy(filtered, cats[..|cats| - 1]) + GroupFor(filtered, cats[|cats| - 1])
  }

  /**
    The grouping loop: for each category other than "All Skills", in `skillCategories`
    order, record the filtered skills of that category when there is at least one.
   */
  method GroupSkills(filtered: seq<Skill>) returns (groups: seq<Group>)
    ensures groups == GroupBy(filtered, SkillCategories)
    ensures forall i :: 0 <= i < |groups| ==> groups[i].category in Listed
    ensures forall i :: 0 <= i < |groups| ==>
      |groups[i].skills| > 0 && groups[i].skills == OfCategory(filtered, groups[i].category)
  {
    groups := GroupAlong(filtered, SkillCategories);
    GroupByKeys(filtered, SkillCategories);
    ListedCategories();
  }

  /** The `forEach` over a category list: visit the categories in order and add each non-empty group. */
  method GroupAlong(filtered: seq<Skill>, cats: seq<string>) returns (groups: seq<Group>)
    ensures groups == GroupBy(filtered, cats)
  {
    groups := [];
    var k := 0;
    while k < |cats|
      invariant 0 <= k <= |cats|
      invariant groups == GroupBy(filtered, cats[..k])
    {
      var category := cats[k];
      assert cats[..k + 1][..k] == cats[..k];
      if category != AllSkills {
        var inCategory := OfCategory(filtered, category);
        if |inCategory| > 0 {
          groups := groups + [Group(category, inCategory)];
        }
      }
      k := k + 1;
    }
    assert cats[..k] == cats;
  }

  /** The eight grouping categories are exactly the tab names other than "All Skills". */
  lemma ListedCategories()
    ensures forall c :: c in SkillCategories && c != AllSkills ==> c in Listed
  {
    forall c | c in SkillCategories && c != AllSkills
      ensures c in Listed
    {
      var i :| 0 <= i < |SkillCategories| && SkillCategories[i] == c;
      assert Listed[i - 1] == c;
    }
  }

  /** Position of `c` in `cats` (|cats| when absent). */
  function IndexOf(cats: seq<string>, c: string): nat {
    if |cats| == 0 then 0
    else if cats[|cats| - 1] == c && c !in cats[..|cats| - 1] then |cats| - 1
    else IndexOf(cats[..|cats| - 1], c)
  }

  lemma {:induction false} IndexOfBound(cats: seq<string>, c: string)
    requires c in cats
    ensures IndexOf(cats, c) < |cats| && cats[IndexOf(cats, c)] == c
  {
    var n := |cats|;
    if !(cats[n - 1] == c && c !in cats[..n - 1]) {
      assert c in cats[..n - 1];
      IndexOfBound(cats[..n - 1], c);
    }
  }

  /** Every group is keyed by a member of `cats` other than "All Skills", and holds only that category's skills. */
  lemma {:induction false} GroupByKeys(filtered: seq<Skill>, cats: seq<string>)
    ensures forall i :: 0 <= i < |GroupBy(filtered, cats)| ==>
      var g := GroupBy(filtered, cats)[i];
      g.category in cats && g.category != AllSkills && |g.skills| > 0 && g.skills == OfCategory(filtered, g.category)
  {
    if |cats| > 0 {
      var front := cats[..|cats| - 1];
      GroupByKeys(filtered, front);
      assert forall c :: c in front ==> c in cats;
    }
  }

  /**
    A category gets a group exactly when it is listed and some filtered skill has it:
    a skill whose category is not one of the eight belongs to no group.
   */
  lemma {:induction false} GroupPresentIff(filtered: seq<Skill>, cats: seq<string>, c: string)
    ensures (exists i :: 0 <= i < |GroupBy(filtered, cats)| && GroupBy(filtered, cats)[i].category == c)
      <==> c in cats && c != AllSkills && |OfCategory(filtered, c)| > 0
  {
    GroupByKeys(filtered, cats);
    if |cats| > 0 {
      var front := cats[..|cats| - 1];
      var last := cats[|cats| - 1];
      GroupPresentIff(filtered, front, c);
      var gs := GroupBy(filtered, cats);
      assert gs == GroupBy(filtered, front) + GroupFor(filtered, last);
      assert c in cats <==> c in front || c == last;
      if c in cats && c != AllSkills && |OfCategory(filtered, c)| > 0 {
        if c == last {
          assert gs[|gs| - 1].category == c;
        } else {
          var i :| 0 <= i < |GroupBy(filtered, front)| && GroupBy(filtered, front)[i].category == c;
          assert gs[i].category == c;
        }
      }
    }
  }

  /**
    Groups come in the order their categories have in `cats` (when the categories are
    distinct), which is the order the "All Skills" view renders them in.
   */
  lemma {:induction false} GroupsInCategoryOrder(filtered: seq<Skill>, cats: seq<string>)
    requires Distinct(cats)
    ensures forall i, j :: 0 <= i < j < |GroupBy(filtered, cats)| ==>
      IndexOf(cats, GroupBy(filtered, cats)[i].category) < IndexOf(cats, GroupBy(filtered, cats)[j].category)
  {
    if |cats| > 0 {
      var front := cats[..|cats| - 1];
      var last := cats[|cats| - 1];
      GroupsInCategoryOrder(filtered, front);
      GroupByKeys(filtered, front);
      var gs := GroupBy(filtered, cats);
      var fs := GroupBy(filtered, front);
      assert gs == fs + GroupFor(filtered, last);
      forall c | c in front
        ensures IndexOf(cats, c) == IndexOf(front, c) < |front|
      {
        IndexOfBound(front, c);
      }
      forall i, j | 0 <= i < j < |gs|
        ensures IndexOf(cats, gs[i].category) < IndexOf(cats, gs[j].category)
      {
        assert gs[i] == fs[i];
        assert fs[i].category in front;
        if j < |fs| {
          assert gs[j] == fs[j];
          assert fs[j].category in front;
        } else {
          assert gs[j].category == last && last !in front;
        }
      }
    }
  }

  /** The category list has no repeats, so the order above is strict. */
  lemma SkillCategoriesDistinct()
    ensures Distinct(SkillCategories)
  {
  }

  function InCategories(cats: seq<string>): Skill -> bool {
    (s: Skill) => s.category in cats && s.category != AllSkills
  }

  function GroupSkillSeqs(groups: seq<Group>): seq<seq<Skill>> {
    if |groups| == 0 then [] else GroupSkillSeqs(groups[..|groups| - 1]) + [groups[|groups| - 1].skills]
  }

  /** All skills shown under the headings, heading by heading. */
  function Shown(groups: seq<Group>): seq<Skill> {
    Flatten(GroupSkillSeqs(groups))
  }

  lemma ShownSnoc(groups: seq<Group>, extra: seq<Group>)
    requires |extra| <= 1
    ensures Shown(groups + extra) == Shown(groups) + (if |extra| == 0 then [] else extra[0].skills)
  {
    if |extra| == 1 {
      assert (groups + extra)[..|groups|] == groups;
      var ss := GroupSkillSeqs(groups + extra);
      assert ss[..|ss| - 1] == GroupSkillSeqs(groups);
    } else {
      assert groups + extra == groups;
    }
  }

  /**
    The grouped view shows each filtered skill whose category is listed in `cats`
    exactly as often as it occurs in the filtered list, and no other skill.
   */
  lemma {:induction false} GroupedShowsListedSkills(filtered: seq<Skill>, cats: seq<string>)
    requires Distinct(cats)
    ensures multiset(Shown(GroupBy(filtered, cats))) == multiset(Filter(filtered, InCategories(cats)))
  {
    if |cats| == 0 {
      FilterCongruent(filtered, InCategories(cats), (s: Skill) => false);
      assert Filter(filtered, (s: Skill) => false) == [] by {
        FilterKeepsNone(filtered, (s: Skill) => false);
      }
    } else {
      var front := cats[..|cats| - 1];
      var last := cats[|cats| - 1];
      assert Distinct(front);
      GroupedShowsListedSkills(filtered, front);
      var extra := GroupFor(filtered, last);
      assert GroupBy(filtered, cats) == GroupBy(filtered, front) + extra;
      ShownSnoc(GroupBy(filtered, front), extra);
      assert forall c :: c in cats <==> c in front || c == last;
      if last == AllSkills {
        FilterCongruent(filtered, InCategories(cats), InCategories(front));
      } else {
        FilterDisjointUnion(filtered, InCategories(front), InCategory(last), InCategories(cats));
      }
    }
  }

  // ---------------------------------------------------------------------------
  // Page state and view

  /** The only state the page owns: the active tab, initially "All Skills". */
  datatype SkillsState = SkillsState(activeTab: string)

  const InitialSkillsState: SkillsState := SkillsState(AllSkills)

  /** A click on the tab button for `category`: that tab is active, whichever was before. */
  function SelectTab(st: SkillsState, category: string): (r: SkillsState)
    ensures r.activeTab == category
    ensures category == AllSkills ==> r == InitialSkillsState
  {
    SkillsState(category)
  }

  datatype SkillsView =
    | SkillsLoading
    | ByCategory(groups: seq<Group>)
    | Flat(skills: seq<Skill>)

  /** While skills load, the loading view; under "All Skills" the grouped view; otherwise the flat filtered list. */
  function Render(skillsLoading: bool, data: Js<seq<Skill>>, st: SkillsState): (r: SkillsView)
    ensures r.SkillsLoading? <==> skillsLoading
    ensures !skillsLoading && st.activeTab == AllSkills ==>
      r == ByCategory(GroupBy(FilterSkills(data, AllSkills), SkillCategories))
    ensures !skillsLoading && st.activeTab != AllSkills ==>
      r == Flat(FilterSkills(data, st.activeTab))
      && forall x :: x in r.skills <==> data.Val? && x in data.v && x.category == st.activeTab
  {
    var filtered := FilterSkills(data, st.activeTab);
    if skillsLoading then SkillsLoading
    else if st.activeTab == AllSkills then ByCategory(GroupBy(filtered, SkillCategories))
    else Flat(filtered)
  }

  /**
    On first render the grouped view shows every loaded skill whose category is one of
    the eight, with its multiplicity, and no other skill.
   */
  lemma InitialViewGroupsListedSkills(skills: seq<Skill>)
    ensures var v := Render(false, Val(skills), InitialSkillsState);
      v.ByCategory? && multiset(Shown(v.groups)) == multiset(Filter(skills, InCategories(SkillCategories)))
  {
    SkillCategoriesDistinct();
    GroupedShowsListedSkills(skills, SkillCategories);
  }

  /** After clicking a category's tab the page lists exactly that category's skills, in data order. */
  lemma ClickingCategoryShowsOnlyIt(st: SkillsState, skills: seq<Skill>, c: string)
    requires c in Listed
    ensures Render(false, Val(skills), SelectTab(st, c)) == Flat(OfCategory(skills, c))
  {
  }

  /** One card of the certifications section; the "View Certificate" link appears only when `link` is set. */
  datatype CertCard = CertCard(name: string, organization: string, certificateLink: Js<string>)

  function CardFor(c: Certification): CertCard {
    CertCard(c.name, c.organization, if Truthy(c.link) then c.link else Undefined)
  }

  /**
    `!certsLoading && certificationsData && certificationsData.length > 0`: the section
    (one card per certification, in order) or nothing.
   */
  function CertificationsSection(certsLoading: bool, certs: Js<seq<Certification>>): (r: Js<seq<CertCard>>)
    ensures r.Val? <==> !certsLoading && certs.Val? && |certs.v| > 0
    ensures r.Val? ==> |r.v| == |certs.v| && forall i :: 0 <= i < |r.v| ==>
      && r.v[i].name == certs.v[i].name
      && r.v[i].organization == certs.v[i].organization
      && (r.v[i].certificateLink.Val? <==> Truthy(certs.v[i].link))
      && (r.v[i].certificateLink.Val? ==> r.v[i].certificateLink == certs.v[i].link)
  {
    if !certsLoading && certs.Val? && |certs.v| > 0 then
      Val(seq(|certs.v|, i requires 0 <= i < |certs.v| => CardFor(certs.v[i])))
    else Undefined
  }
}
